=== FILE: README.md ===
# Text-and-image to 3D mesh pipeline: a Dafny model of its core logic

The repository turns images and short user texts into 3D meshes in three
steps:

1. `caption_and_fuse.py` captions every image of `images/` with a
   pretrained captioning model. It saves the caption to `captions/<key>.txt`.
   It then fuses the caption with the optional user text
   `user_prompts/<key>.txt` into `prompts/<key>.txt`.
2. `fuse_text_prompts.py` redoes only the fusion. It works from the caption
   files already in `captions/`.
3. `3d_model.py` reads every `.txt` prompt in sorted order and generates a
   `.ply` and an `.obj` mesh for each one in `outputs/`. It skips prompts
   whose two mesh files both exist already, and it ends with a summary of
   successes, failures and timing.

The model covers the sequential logic around the pretrained models:
- file filters, keys and paths (Python's `os.path.splitext` and
  `os.path.join`);
- `str.strip` and the fusion formula `f"{caption}. {user_text}".strip()`;
- the per-item skip and failure rules of the two caption scripts;
- the mesh loop as a fold, with its counters, total time and the guarded
  average.

The outside world comes in as function parameters:
- the captioning model, the mesh sampler and decoder, file reads, file
  writes and elapsed times are oracles;
- the set of existing files is a `set<string>`;
- written file contents are a `map<string, string>`.

Modules, one file each:

| module | file | models |
|---|---|---|
| `Text` | text.dfy | `str.isspace`, `str.strip`, `str.endswith`, ASCII `str.lower` |
| `Ordering` | ordering.dfy | Python's string order and `sorted()` |
| `Paths` | paths.dfy | POSIX `os.path.splitext` and `os.path.join` |
| `PromptSource` | prompt_source.dfy | `read_prompts_from_folder` |
| `Fusion` | fusion.dfy | the user-text default and the fusion formula both caption scripts share |
| `MeshBatch` | mesh_batch.dfy | `generate_mesh`'s outputs and `main`'s loop and summary in `3d_model.py` |
| `CaptionFuse` | caption_fuse.dfy | `generate_caption` and `main` of `caption_and_fuse.py` |
| `FuseText` | fuse_text.dfy | the loop of `fuse_text_prompts.py` |

Two per-item failures escape `main` and end the run:
- a prompt file that cannot be read (`3d_model.py:18-23` catches only the
  UTF-8 decode error, and retries with Latin-1);
- a user prompt file that exists but cannot be read
  (`caption_and_fuse.py:67-69` is outside any `try`).

`PromptSource.ReadPromptsFromFolder`, `MeshBatch.Main` and
`CaptionFuse.Run` model both as ending the run.

## Model

| member | source | states |
|---|---|---|
| Text.IsSpace | 3d_model.py:20 | definition of the characters Python's `str.isspace` accepts, which `strip()` removes; used by `Text.StripSpec` |
| Text.EndsWith | 3d_model.py:16 | definition of `str.endswith` with one suffix; its contract is in `Text.EndsWithConcat` |
| Text.EndsWithConcat | 3d_model.py:16 | a name ends with a suffix exactly when it is some text followed by that suffix |
| Text.Strip | 3d_model.py:20 | definition of `str.strip()`; its contract is in `Text.StripSpec` and `Text.StripCharacterization` |
| Text.StripSpec | 3d_model.py:20 | `strip()` never lengthens a string; its result has no whitespace at either end and sits in the input between two runs of whitespace |
| Text.StripCharacterization | 3d_model.py:20 | `strip(s) == r` exactly when `r` is trimmed and `s` is `r` with only whitespace around it |
| Text.StripIdempotent | 3d_model.py:20 | stripping twice is stripping once |
| Text.StripOfSpaces | fuse_text_prompts.py:21 | a string of whitespace only strips to the empty string |
| Text.Lower | caption_and_fuse.py:38 | definition of `str.lower` on ASCII letters; used by `CaptionFuse.ImageNameIgnoresCase` |
| Ordering.Le | 3d_model.py:15 | definition of Python's code-point `<=` on `str`; its contract is in `Ordering.LeTotal`, `Ordering.LeAntisymmetric` and `Ordering.LeTransitive` |
| Ordering.LeTotal | 3d_model.py:15 | any two strings are ordered one way or the other |
| Ordering.LeAntisymmetric | 3d_model.py:15 | strings ordered both ways are equal |
| Ordering.LeTransitive | 3d_model.py:15 | the order is transitive |
| Ordering.Sort | 3d_model.py:15 | `sorted()` returns an ascending permutation of the listing |
| Ordering.SortIgnoresOrder | 3d_model.py:15 | two listings with the same names sort to the same list |
| Ordering.SortedUnique | 3d_model.py:15 | two sorted lists holding the same names are equal |
| Paths.SplitExt | 3d_model.py:25 | the key followed by the extension is the original name |
| Paths.ExtensionShape | 3d_model.py:25 | the extension `splitext` removes is empty or one dot followed by characters that are neither dots nor slashes |
| Paths.Stem | 3d_model.py:25 | definition of `os.path.splitext(name)[0]`; used by `Paths.TxtStem` and `Paths.StemAtLastDot` |
| Paths.TxtStem | 3d_model.py:25 | the key of `<stem>.txt` is `<stem>`, unless the stem is all dots, in which case the key is the whole name |
| Paths.StemOfTxtName | 3d_model.py:25 | appending `.txt` and taking the key gives back the stem |
| Paths.TxtStemInjective | 3d_model.py:25 | distinct `.txt` names whose stems are not all dots have distinct keys |
| Paths.DotOnlyStemsCollide | 3d_model.py:25 | `.txt` and `.txt.txt` both get the key `.txt` |
| Paths.StemKeepsInnerDots | 3d_model.py:25 | only the last extension goes: `a.b.txt` gives `a.b` |
| Paths.StemAtLastDot | caption_and_fuse.py:42 | a name is keyed by everything before its last dot, when that part is not all dots |
| Paths.Join | 3d_model.py:17 | `posixpath.join` of a folder and a name; the result ends with the name |
| Paths.JoinInjective | fuse_text_prompts.py:14-16 | within one folder, distinct slash-free names give distinct paths |
| PromptSource.IsPromptFile | 3d_model.py:16 | definition of the case-sensitive `.txt` filter; used by `PromptSource.PromptFiles` |
| PromptSource.PromptFiles | 3d_model.py:16 | exactly the names ending in `.txt`, case-sensitively, are kept |
| PromptSource.TxtFiles | 3d_model.py:15-16 | definition: the listing sorted, then filtered to `.txt` names; its contract is in `PromptSource.TxtFilesAreSortedPromptFiles` |
| PromptSource.ReadAll | 3d_model.py:15-25 | the reader returns lists exactly when every visited file is readable, and then one prompt and one key per file |
| PromptSource.ReadAllEntries | 3d_model.py:15-25 | entry i of both lists comes from the i-th visited file: its stripped text and its key |
| PromptSource.ReadAllFailure | 3d_model.py:18-23 | a read error names the first unreadable file; all files before it were readable |
| PromptSource.ReadPromptsFromFolder | 3d_model.py:12-26 | discovery succeeds exactly when every listed `.txt` file is readable; the two lists have equal length, one entry per `.txt` file |
| PromptSource.TxtFilesAreSortedPromptFiles | 3d_model.py:15-16 | the visited files are the listing's `.txt` names, each as often as listed, in ascending order |
| PromptSource.DiscoveredEntries | 3d_model.py:13-25 | each prompt is the stripped text of the file at the same position, so it has no surrounding whitespace, and each key is that file's `splitext` stem |
| PromptSource.DiscoveryFailure | 3d_model.py:18-23 | a read failure names a listed `.txt` file that cannot be read |
| PromptSource.DiscoveryIgnoresListingOrder | 3d_model.py:15 | discovery does not depend on the order `os.listdir` returns |
| PromptSource.NoPromptFilesNoPrompts | 3d_model.py:12-26 | a folder without `.txt` files yields two empty lists |
| PromptSource.KeyOfPromptFile | 3d_model.py:25 | key i is the i-th file name minus `.txt`, or the whole name for an all-dots stem |
| Fusion.AfterWrite | caption_and_fuse.py:55-56 | definition of `with open(path, "w") as f: f.write(text)`; its contract is in `Fusion.AfterWriteAtPath` and `Fusion.AfterWriteElsewhere` |
| Fusion.AfterWriteAtPath | caption_and_fuse.py:55-56 | an `open` that raises changes nothing; once `open` succeeds the file exists and holds a prefix of the text, all of it when the write succeeds |
| Fusion.AfterWriteElsewhere | caption_and_fuse.py:55-56 | a write changes no other path |
| Fusion.UserText | caption_and_fuse.py:66-71 | definition of the user-text default; its contract is in `Fusion.UserTextShape` |
| Fusion.Fuse | caption_and_fuse.py:73 | definition of `f"{caption}. {user_text}".strip()`; its contract is in `Fusion.FuseTrimmed`, `Fusion.FuseWithUserText` and `Fusion.FuseWithoutUserText` |
| Fusion.UserTextShape | caption_and_fuse.py:66-71 | a missing user file gives empty user text; a present one gives its contents without surrounding whitespace |
| Fusion.FuseTrimmed | caption_and_fuse.py:73 | the fused prompt never has surrounding whitespace |
| Fusion.FuseWithUserText | fuse_text_prompts.py:32 | with a trimmed caption and non-empty trimmed user text, the result is exactly `caption + ". " + user_text` |
| Fusion.FuseWithoutUserText | fuse_text_prompts.py:32 | with a trimmed caption and no user text, the result is `caption + "."` |
| Fusion.FuseEmpty | fuse_text_prompts.py:32 | an empty caption and no user text give `"."` |
| MeshBatch.PlyPath | 3d_model.py:29 | definition of `<out>/<key>_0.ply`; used by `MeshBatch.OutputPathsDiffer` and `MeshBatch.OutputPathsInjective` |
| MeshBatch.ObjPath | 3d_model.py:30 | definition of `<out>/<key>_0.obj`; used by `MeshBatch.OutputPathsDiffer` and `MeshBatch.OutputPathsInjective` |
| MeshBatch.OutputPathsDiffer | 3d_model.py:29-30 | the `.ply` and `.obj` paths of a key are different files |
| MeshBatch.OutputPathsInjective | 3d_model.py:29-30 | distinct slash-free keys never share an output file: no two of their `.ply` and `.obj` paths are equal |
| MeshBatch.WriteLatents | 3d_model.py:48-57 | only the key's two paths are created; a clean run with at least one latent leaves both files |
| MeshBatch.WriteLatentsRaises | 3d_model.py:48-57 | the latent loop raises exactly when some latent's decode, open or write fails |
| MeshBatch.GenerateMesh | 3d_model.py:28-57 | definition of `generate_mesh`'s effect on the files; its contract is in `MeshBatch.GenerateMeshContract` |
| MeshBatch.GenerateMeshContract | 3d_model.py:28-57 | `generate_mesh` creates at most the two paths `main` checks; it returns normally exactly when sampling succeeds and every latent is saved |
| MeshBatch.Generated | 3d_model.py:93 | definition of the skip test, both output files present; used by `MeshBatch.ItemDecision` |
| MeshBatch.Step | 3d_model.py:89-108 | definition of one loop iteration; its contract is in `MeshBatch.StepAccounting` and `MeshBatch.ItemDecision` |
| MeshBatch.Run | 3d_model.py:88-110 | the loop records exactly one result per item |
| MeshBatch.RunSnoc | 3d_model.py:88-108 | the loop handles the items in order: one more item is one more step on the state the earlier items left |
| MeshBatch.StepAccounting | 3d_model.py:89-108 | one step appends exactly one result; a success adds one to the success count and its time to the total, a failure adds one to the failure count, a skip changes neither |
| MeshBatch.RunAccounting | 3d_model.py:84-108 | the counters count successes and failures; successes, failures and skips add up to the number of prompts; `total_time` is the sum of the successful items' times only |
| MeshBatch.RunExtends | 3d_model.py:88-110 | later items never revise earlier results and never remove files |
| MeshBatch.ItemDecision | 3d_model.py:89-108 | an item is skipped exactly when both its output files exist on reaching it; otherwise it succeeds, with its own elapsed time, exactly when `generate_mesh` does not raise, and fails exactly when it does |
| MeshBatch.SkipChangesNothing | 3d_model.py:93-95 | a skipped item changes neither counter, nor `total_time`, nor the files |
| MeshBatch.FilesOnlyFromOutputs | 3d_model.py:29-30 | the loop only adds files, and only the `.ply` and `.obj` paths of its own items' keys |
| MeshBatch.OutputsOnDisk | 3d_model.py:89-100 | an item that was skipped, or whose call created both files, has both files on disk after the run |
| MeshBatch.RerunSkips | 3d_model.py:89-95 | a second run over the files the first one left skips every such item, whatever happens in the second run |
| MeshBatch.RerunSkipsSucceeded | 3d_model.py:89-105 | every success that sampled a latent is skipped by the next run |
| MeshBatch.TruncatedObjNeverRetried | 3d_model.py:54-55 | an item whose `.obj` write raises is not a success, yet it leaves both files, so every later run skips it |
| MeshBatch.FailureIsolation | 3d_model.py:97-108 | with three items and a failing middle one: two successes with their outputs on disk, one failure, and a total of the two successful times |
| MeshBatch.Summarise | 3d_model.py:113-118 | the summary repeats the counters and total; an average is reported exactly when `success_count > 0`, and then it times the success count gives the total |
| MeshBatch.Zip | 3d_model.py:88 | `zip` pairs prompt i with key i, up to the shorter list |
| MeshBatch.Main | 3d_model.py:59-118 | a read error ends `main`; no prompts means no loop and no summary; otherwise every prompt gets exactly one result and the summary is printed |
| CaptionFuse.GenerateCaption | caption_and_fuse.py:15-24 | the result is None exactly when the captioning step raises, and otherwise the model's caption |
| CaptionFuse.IsImageName | caption_and_fuse.py:38 | definition of the image filter; its contract is in `CaptionFuse.ImageNameIgnoresCase`, `CaptionFuse.ImageNamesAccepted` and `CaptionFuse.ImageNamesRejected` |
| CaptionFuse.ProcessFile | caption_and_fuse.py:37-79 | definition of one loop iteration; its contract is in `CaptionFuse.ProcessFileStages` |
| CaptionFuse.ProcessFileStages | caption_and_fuse.py:37-79 | non-images are skipped; a None or empty caption skips the item; a failed caption write skips fusion and records how far the write got; a fused item's caption is the model's own text and was saved; only an unreadable user prompt file escapes |
| CaptionFuse.Apply | caption_and_fuse.py:54-79 | definition of what one entry writes, with `open("w")` truncating before the write; its contract is in `CaptionFuse.ApplyWrites` and `CaptionFuse.ApplyLeavesOthers` |
| CaptionFuse.Run | caption_and_fuse.py:37-79 | the loop reaches at most every entry of the listing; its contract is in `CaptionFuse.RunOutcomes` |
| CaptionFuse.RunOutcomes | caption_and_fuse.py:37-79 | each entry's outcome depends on that entry alone; the run stops only after an unreadable user prompt file |
| CaptionFuse.RunReachesEveryEntry | caption_and_fuse.py:54-79 | failed captions and failed writes never stop the loop |
| CaptionFuse.ApplyWrites | caption_and_fuse.py:51-79 | non-images and missing captions write nothing; a write whose `open` raises changes nothing, one that raises after `open` leaves a prefix of its text, and a successful one leaves the whole text; the output path is untouched unless a prompt write gets past `open` |
| CaptionFuse.ApplyLeavesOthers | caption_and_fuse.py:51-79 | an entry writes no path other than its caption and output paths |
| CaptionFuse.FusedPrompt | caption_and_fuse.py:66-79 | the fused prompt is `Fuse(caption, user_text)` with the user text defaulted, and has no surrounding whitespace; its write outcome is the one for the output path |
| CaptionFuse.FusedWithoutUserPrompt | caption_and_fuse.py:66-73 | without a user prompt file the caption is fused alone: a trimmed caption followed by `.` |
| CaptionFuse.UntrimmedCaptionKeepsBlank | caption_and_fuse.py:73 | the caption is not stripped here: `"a cat "` alone becomes `"a cat ."` |
| CaptionFuse.ImageNameIgnoresCase | caption_and_fuse.py:38 | the image filter gives the same answer for a name and its lower-cased form |
| CaptionFuse.ImageNamesAccepted | caption_and_fuse.py:38-40 | `CAT.JPG`, `dog.Jpeg` and `x.png` pass the filter |
| CaptionFuse.ImageNamesRejected | caption_and_fuse.py:38-40 | `cat.gif`, `notes.txt` and `jpg` do not pass the filter |
| CaptionFuse.KeyFile | caption_and_fuse.py:42-46 | definition of `splitext(file)[0] + ".txt"`; used by `CaptionFuse.KeyFileKeepsKey` |
| CaptionFuse.ImagePath | caption_and_fuse.py:43 | definition of `images/<file>`; used by `CaptionFuse.ProcessFileStages` |
| CaptionFuse.UserPromptPath | caption_and_fuse.py:44 | definition of `user_prompts/<key>.txt`; used by `CaptionFuse.KeyFileInEveryFolder` |
| CaptionFuse.CaptionPath | caption_and_fuse.py:45 | definition of `captions/<key>.txt`; used by `CaptionFuse.KeyFileInEveryFolder` |
| CaptionFuse.OutputPath | caption_and_fuse.py:46 | definition of `prompts/<key>.txt`; used by `CaptionFuse.KeyFileInEveryFolder` and `CaptionFuse.OutputPathsCollide` |
| CaptionFuse.KeyFileKeepsKey | caption_and_fuse.py:42-46 | the mesh script keys the `<key>.txt` prompt file by the image's own key |
| CaptionFuse.KeyFileInEveryFolder | caption_and_fuse.py:42-46 | caption, user prompt and output files carry the same `<key>.txt` name, each in its own folder |
| CaptionFuse.CaptionAndOutputDiffer | caption_and_fuse.py:45-46 | a caption file is never a prompt file |
| CaptionFuse.OutputPathsCollide | caption_and_fuse.py:42-46 | two images write the same prompt file exactly when their keys are equal |
| CaptionFuse.SameStemImagesCollide | caption_and_fuse.py:42-46 | `a.jpg` and `a.png` share the key `a` and one output path |
| CaptionFuse.RunLeavesOthers | caption_and_fuse.py:37-79 | a path that is no entry's caption or output path keeps its contents through the run |
| CaptionFuse.ApplyKeepsOutput | caption_and_fuse.py:37-79 | one entry leaves a prompt file alone unless it is that file's own entry and its prompt write gets past `open` |
| CaptionFuse.RunKeepsOutput | caption_and_fuse.py:37-79 | a prompt file that no reached entry writes past `open` keeps its contents through the run, whatever those entries' captions and caption writes do |
| CaptionFuse.SavedPromptOnDisk | caption_and_fuse.py:37-79 | a saved prompt is what its file holds after the run, unless a later image with the same key that the run reaches gets its own prompt write past `open` |
| FuseText.ProcessFile | fuse_text_prompts.py:9-41 | definition of one loop iteration; its contract is in `FuseText.ProcessFileStages` |
| FuseText.Apply | fuse_text_prompts.py:34-36 | definition of what one entry writes, with `open("w")` truncating before the write; its contract is in `FuseText.ApplyPromptFile` and `FuseText.ApplyElsewhere` |
| FuseText.ProcessFileStages | fuse_text_prompts.py:9-41 | non-`.txt` names are ignored; a missing or unreadable caption fails the entry, and so does an unreadable user prompt; a prompt is combined exactly when the caption is readable, the user prompt is missing or readable, and the write succeeds, and its write failed otherwise, with that write's outcome recorded |
| FuseText.Run | fuse_text_prompts.py:9-41 | every entry of the listing gets an outcome: no failure stops the loop |
| FuseText.RunOutcomes | fuse_text_prompts.py:18-41 | each entry's outcome depends on that entry alone |
| FuseText.CombinedPrompt | fuse_text_prompts.py:20-32 | the prompt is `Fuse(strip(caption), user_text)`, with the user text stripped or empty, and has no surrounding whitespace |
| FuseText.CombinedShape | fuse_text_prompts.py:20-32 | the prompt is `caption + ". " + user` when there is user text, and `caption + "."` when there is none |
| FuseText.UnsavedPromptText | fuse_text_prompts.py:20-36 | a prompt whose write raised is the same fused text a successful write would have saved |
| FuseText.BlankCaptionBecomesPeriod | fuse_text_prompts.py:20-32 | a whitespace-only caption with no user prompt is not skipped but becomes `"."` |
| FuseText.CaptionBlankDropped | fuse_text_prompts.py:21-32 | the caption is stripped first: `"a cat "` alone becomes `"a cat."` |
| FuseText.IsCaptionFile | fuse_text_prompts.py:10 | definition of the case-sensitive `.txt` filter; used by `FuseText.ProcessFileStages` |
| FuseText.CaptionPath | fuse_text_prompts.py:14 | definition of `captions/<name>`; used by `FuseText.SameNameInEveryFolder` |
| FuseText.UserPromptPath | fuse_text_prompts.py:15 | definition of `user_prompts/<name>`; used by `FuseText.SameNameInEveryFolder` |
| FuseText.FusedPath | fuse_text_prompts.py:16 | definition of `prompts/<name>`; used by `FuseText.SameNameInEveryFolder` and `FuseText.FusedPathInjective` |
| FuseText.SameNameInEveryFolder | fuse_text_prompts.py:14-16 | caption, user prompt and fused files use the caption file's own name, each in its own folder |
| FuseText.FusedPathInjective | fuse_text_prompts.py:16 | two slash-free names share a prompt file exactly when they are equal |
| FuseText.RunLeavesOthers | fuse_text_prompts.py:34-36 | a path that is no entry's prompt path keeps its contents through the run |
| FuseText.ApplyPromptFile | fuse_text_prompts.py:34-36 | an entry leaves its combined prompt in its prompt file, a prefix of the prompt when the write raised after `open`, and the files unchanged otherwise |
| FuseText.ApplyElsewhere | fuse_text_prompts.py:34-36 | an entry changes no path other than its own prompt file |
| FuseText.RunKeepsUnwritten | fuse_text_prompts.py:18-41 | a path that no entry's combined prompt or opened prompt write touches keeps its contents through the run |
| FuseText.FailedEntryKeepsPrompt | fuse_text_prompts.py:18-41 | in a listing of distinct names, an entry that is not combined keeps its prompt file as it was, unless its own prompt write raised after `open`, which leaves a prefix of its prompt there |
| FuseText.FinalPromptFile | fuse_text_prompts.py:9-41 | in a listing of distinct names, each entry's prompt file ends the run exactly as that entry alone left it |
| FuseText.CombinedPromptOnDisk | fuse_text_prompts.py:34-36 | in a listing of distinct names, every combined prompt is in its prompt file at the end of the run |

## Left out

- Shap-E sampling, latent decoding, PLY/OBJ serialisation, the captioning model, PIL decoding and torch device selection are foreign library calls. They become oracles that return a result or raise.
- Loading the models (`3d_model.py:76-80`, and module import time in `caption_and_fuse.py`) is not modelled. A failure there ends the process before any item.
- File contents are modelled as decoded strings. The UTF-8 / Latin-1 decoding fallback is folded into a single readable-or-error outcome.
- Directory creation (`os.makedirs`), `os.path.abspath` and the absolute base folder are not modelled. Output folders are plain folder names.
- A text-file write that raises after `open(path, "w")` is modelled as leaving a prefix of the text in the file. How long that prefix is, is an oracle. The mesh files keep the same open/write split, per file.
- `time.time()` and float arithmetic are not modelled. Elapsed times are abstract non-negative reals with exact addition and division. The two-decimal formatting of the summary is not modelled.
- `gc.collect` and `tqdm` progress bars are not modelled, because they do not affect any result.
- Every `print` is assumed not to raise, as on a UTF-8 standard output. On another encoding a non-ASCII caption or prompt could make a print raise: inside a `try` (`3d_model.py:98`, `3d_model.py:103`, `caption_and_fuse.py:57`, `fuse_text_prompts.py:38`) that would turn the item into a failure, and outside one (`3d_model.py:94`, `caption_and_fuse.py:39`, `caption_and_fuse.py:48`, `caption_and_fuse.py:53`) it would end the run.
- In `caption_and_fuse.py` a write's outcome is an oracle of the image and the path, so two images with the same key write their shared files independently. In `fuse_text_prompts.py` it is an oracle of the path alone: its names come from one `os.listdir` and are distinct, so each prompt path is written at most once per run, and a listing that repeated a name would have both writes end alike.
- The caption scripts run in `os.listdir` order, which is unspecified. Their loops take the listing order as given, and nothing is claimed about it.
- The first `os.listdir` call in `caption_and_fuse.py:35` prints a count and is not modelled. When `images/` is missing it is the call that raises.
- `os.listdir` raising on a missing folder (`3d_model.py:15`, `caption_and_fuse.py:35`, `fuse_text_prompts.py:9`) ends the run. The listing is an input of the model, so this failure is not modelled.
- Exceptions that are not `Exception` subclasses (such as a keyboard interrupt) are not modelled.
- `graph.py` and `grh2.py` only plot hard-coded numbers and are not part of this model.
- Text.LowerChar: lower-cases ASCII letters only, unlike Python's `str.lower`. No non-ASCII character lower-cases to `.`, `j`, `p`, `g`, `e` or `n`, so the image filter gives the same answer either way.
- MeshBatch.Run: the prompt text given to the sampler is not modelled. What sampling does for item i is an oracle indexed by position.

=== FILE: caption_fuse.dfy ===
/** The captioning pipeline: for every image of the image folder, caption it,
    save the caption, and fuse it with the user's prompt for that image into
    the prompt the mesh script reads. The captioning model and the file
    system are oracles. */
module CaptionFuse {
  import opened Text
  import opened Paths
  import opened Fusion

  datatype Option<T> = None | Some(value: T)

  /** What the captioning model does with one image: it produces a caption,
      or opening, preprocessing or generating raises. */
  datatype CaptionAttempt = Captioned(text: string) | CaptionRaised

  /** The outside world of one run: the model, what reading each path yields,
      and how each image's write of each path ends. Writes are keyed by the
      image as well as the path, so two images with the same key write their
      shared files independently. */
  datatype Env = Env(caption: string -> CaptionAttempt, read: string -> FileRead, write: (string, string) -> WriteOutcome)

  /** generate_caption: every exception of the captioning step is turned into
      a missing caption. */
  function GenerateCaption(imagePath: string, caption: string -> CaptionAttempt): (r: Option<string>)
    ensures r.None? <==> caption(imagePath).CaptionRaised?
    ensures r.Some? ==> caption(imagePath) == Captioned(r.value)
  {
    match caption(imagePath)
    case Captioned(text) => Some(text)
    case CaptionRaised => None
  }

  /** file.lower().endswith((".jpg", ".png", ".jpeg")) */
  predicate IsImageName(file: string) {
    var name := Lower(file);
    EndsWith(name, ".jpg") || EndsWith(name, ".png") || EndsWith(name, ".jpeg")
  }

  /** The name every derived file of an image gets: its key plus ".txt". */
  function KeyFile(file: string): string {
    Stem(file) + ".txt"
  }

  function ImagePath(file: string): string { Join("images", file) }
  function UserPromptPath(file: string): string { Join("user_prompts", KeyFile(file)) }
  function CaptionPath(file: string): string { Join("captions", KeyFile(file)) }
  function OutputPath(file: string): string { Join("prompts", KeyFile(file)) }

  /** How one directory entry is handled. The caption is carried from the
      point it was generated, with the outcome of each write attempted. */
  datatype ItemOutcome =
    | NotAnImage
    | NoCaption
    | CaptionNotSaved(caption: string, attempt: WriteOutcome)
    | UserPromptUnreadable(caption: string)
    | Fused(caption: string, prompt: string, attempt: WriteOutcome)

  /** One iteration of main's loop over the image folder. */
  function ProcessFile(file: string, env: Env): ItemOutcome
  {
    if !IsImageName(file) then NotAnImage
    else
      match GenerateCaption(ImagePath(file), env.caption)
      case None => NoCaption
      case Some(caption) =>
        if caption == [] then NoCaption
        else if !env.write(file, CaptionPath(file)).Written? then CaptionNotSaved(caption, env.write(file, CaptionPath(file)))
        else
          var user := env.read(UserPromptPath(file));
          if user.ReadError? then UserPromptUnreadable(caption)
          else Fused(caption, Fuse(caption, UserText(user)), env.write(file, OutputPath(file)))
  }

  /** Which stage an entry reaches: non-images are skipped; a missing or
      empty caption skips the entry; a caption that cannot be saved skips
      fusion; only an unreadable user prompt file escapes. */
  lemma ProcessFileStages(file: string, env: Env)
    ensures var o := ProcessFile(file, env);
      var caption := env.caption(ImagePath(file));
      && (o.NotAnImage? <==> !IsImageName(file))
      && (o.NoCaption? <==> IsImageName(file) && GenerateCaption(ImagePath(file), env.caption) in {None, Some([])})
      && (o.CaptionNotSaved? <==>
            IsImageName(file) && caption.Captioned? && caption.text != [] && !env.write(file, CaptionPath(file)).Written?)
      && (o.CaptionNotSaved? ==> o.attempt == env.write(file, CaptionPath(file)))
      && ((o.CaptionNotSaved? || o.UserPromptUnreadable? || o.Fused?) ==> caption == Captioned(o.caption) && o.caption != [])
      && ((o.UserPromptUnreadable? || o.Fused?) ==> env.write(file, CaptionPath(file)).Written?)
      && (o.UserPromptUnreadable? <==>
            !o.NotAnImage? && !o.NoCaption? && !o.CaptionNotSaved? && env.read(UserPromptPath(file)).ReadError?)
  {
  }

  /** What an entry's outcome writes: the caption file whenever its open()
      succeeds, and then the prompt file whenever that open() succeeds. */
  function Apply(disk: map<string, string>, file: string, o: ItemOutcome): map<string, string> {
    ApplyAt(disk, CaptionPath(file), OutputPath(file), o)
  }

  function ApplyAt(disk: map<string, string>, captionPath: string, outputPath: string, o: ItemOutcome): map<string, string> {
    match o
    case CaptionNotSaved(caption, attempt) => AfterWrite(disk, captionPath, caption, attempt)
    case UserPromptUnreadable(caption) => disk[captionPath := caption]
    case Fused(caption, prompt, attempt) => AfterWrite(disk[captionPath := caption], outputPath, prompt, attempt)
    case _ => disk
  }

  /** The files of one run and the outcome of every entry it reached. */
  datatype Pipeline = Pipeline(disk: map<string, string>, outcomes: seq<ItemOutcome>)

  /** main's loop over the directory listing, in the order given; an
      unreadable user prompt file raises out of main and ends the run. */
  function Run(listing: seq<string>, env: Env, disk: map<string, string>): (p: Pipeline)
    ensures |p.outcomes| <= |listing|
  {
    if listing == [] then Pipeline(disk, [])
    else
      var o := ProcessFile(listing[0], env);
      var d := Apply(disk, listing[0], o);
      if o.UserPromptUnreadable? then Pipeline(d, [o])
      else
        var rest := Run(listing[1..], env, d);
        Pipeline(rest.disk, [o] + rest.outcomes)
  }

  /** The outcome of an entry depends on that entry alone; the run goes on
      past every entry except one whose user prompt cannot be read, which is
      the last one it reaches. */
  lemma RunOutcomes(listing: seq<string>, env: Env, disk: map<string, string>)
    ensures var os := Run(listing, env, disk).outcomes;
      && (forall i :: 0 <= i < |os| ==> os[i] == ProcessFile(listing[i], env))
      && (forall i :: 0 <= i < |os| - 1 ==> !os[i].UserPromptUnreadable?)
      && (|os| < |listing| ==> os != [] && os[|os| - 1].UserPromptUnreadable?)
  {
    var os := Run(listing, env, disk).outcomes;
    forall i | 0 <= i < |os| ensures os[i] == ProcessFile(listing[i], env) {
      RunOutcomeAt(listing, env, disk, i);
    }
    RunStopsOnlyAtUnreadable(listing, env, disk);
  }

  lemma {:induction false} RunOutcomeAt(listing: seq<string>, env: Env, disk: map<string, string>, i: nat)
    requires i < |Run(listing, env, disk).outcomes|
    ensures Run(listing, env, disk).outcomes[i] == ProcessFile(listing[i], env)
  {
    var o := ProcessFile(listing[0], env);
    var d := Apply(disk, listing[0], o);
    if !o.UserPromptUnreadable? {
      assert Run(listing, env, disk).outcomes == [o] + Run(listing[1..], env, d).outcomes;
      if i > 0 {
        RunOutcomeAt(listing[1..], env, d, i - 1);
        assert listing[1..][i - 1] == listing[i];
      }
    }
  }

  lemma RunStopsOnlyAtUnreadable(listing: seq<string>, env: Env, disk: map<string, string>)
    ensures var os := Run(listing, env, disk).outcomes;
      && (forall i :: 0 <= i < |os| - 1 ==> !os[i].UserPromptUnreadable?)
      && (|os| < |listing| ==> os != [] && os[|os| - 1].UserPromptUnreadable?)
  {
    var os := Run(listing, env, disk).outcomes;
    forall i | 0 <= i < |os| - 1 ensures !os[i].UserPromptUnreadable? {
      RunGoesOnAt(listing, env, disk, i);
    }
    if |os| < |listing| {
      RunStopsEarly(listing, env, disk);
    }
  }

  lemma {:induction false} RunGoesOnAt(listing: seq<string>, env: Env, disk: map<string, string>, i: nat)
    requires i < |Run(listing, env, disk).outcomes|
    ensures i + 1 < |Run(listing, env, disk).outcomes| ==> !Run(listing, env, disk).outcomes[i].UserPromptUnreadable?
  {
    var o := ProcessFile(listing[0], env);
    var d := Apply(disk, listing[0], o);
    if o.UserPromptUnreadable? {
      assert Run(listing, env, disk).outcomes == [o];
    } else {
      assert Run(listing, env, disk).outcomes == [o] + Run(listing[1..], env, d).outcomes;
      if i > 0 {
        RunGoesOnAt(listing[1..], env, d, i - 1);
      }
    }
  }

  lemma {:induction false} RunStopsEarly(listing: seq<string>, env: Env, disk: map<string, string>)
    requires |Run(listing, env, disk).outcomes| < |listing|
    ensures Run(listing, env, disk).outcomes != []
    ensures Run(listing, env, disk).outcomes[|Run(listing, env, disk).outcomes| - 1].UserPromptUnreadable?
  {
    var o := ProcessFile(listing[0], env);
    var d := Apply(disk, listing[0], o);
    if !o.UserPromptUnreadable? {
      var rest := Run(listing[1..], env, d).outcomes;
      assert Run(listing, env, disk).outcomes == [o] + rest;
      RunStopsEarly(listing[1..], env, d);
    }
  }

  /** Failed captions and failed writes never stop the loop: unless some
      user prompt file cannot be read, every entry is processed. */
  lemma RunReachesEveryEntry(listing: seq<string>, env: Env, disk: map<string, string>)
    requires forall i :: 0 <= i < |listing| ==> !ProcessFile(listing[i], env).UserPromptUnreadable?
    ensures |Run(listing, env, disk).outcomes| == |listing|
  {
    RunOutcomes(listing, env, disk);
  }

  /** Skipped entries write nothing. A caption write whose open() raises
      changes nothing, and one that raises later leaves a prefix of the
      caption. A saved caption, and a saved prompt, land at the entry's
      caption and output paths; a prompt whose write raises after open()
      leaves a prefix of the prompt; the output path is left as it was when
      no prompt write is attempted or its open() raises. */
  lemma ApplyWrites(disk: map<string, string>, file: string, o: ItemOutcome)
    requires '/' !in file
    ensures (o.NotAnImage? || o.NoCaption?) ==> Apply(disk, file, o) == disk
    ensures o.CaptionNotSaved? && o.attempt.OpenFailed? ==> Apply(disk, file, o) == disk
    ensures o.CaptionNotSaved? && !o.attempt.OpenFailed? ==>
      CaptionPath(file) in Apply(disk, file, o) && Apply(disk, file, o)[CaptionPath(file)] <= o.caption
    ensures (o.UserPromptUnreadable? || o.Fused?) ==>
      CaptionPath(file) in Apply(disk, file, o) && Apply(disk, file, o)[CaptionPath(file)] == o.caption
    ensures o.Fused? && o.attempt.Written? ==>
      OutputPath(file) in Apply(disk, file, o) && Apply(disk, file, o)[OutputPath(file)] == o.prompt
    ensures o.Fused? && o.attempt.WriteFailed? ==>
      OutputPath(file) in Apply(disk, file, o) && Apply(disk, file, o)[OutputPath(file)] <= o.prompt
    ensures !(o.Fused? && !o.attempt.OpenFailed?) ==> SameAt(Apply(disk, file, o), disk, OutputPath(file))
  {
    CaptionAndOutputDiffer(file, file);
    ApplyAtWrites(disk, CaptionPath(file), OutputPath(file), o);
  }

  lemma ApplyAtWrites(disk: map<string, string>, captionPath: string, outputPath: string, o: ItemOutcome)
    requires captionPath != outputPath
    ensures (o.NotAnImage? || o.NoCaption?) ==> ApplyAt(disk, captionPath, outputPath, o) == disk
    ensures o.CaptionNotSaved? && o.attempt.OpenFailed? ==> ApplyAt(disk, captionPath, outputPath, o) == disk
    ensures o.CaptionNotSaved? && !o.attempt.OpenFailed? ==>
      captionPath in ApplyAt(disk, captionPath, outputPath, o) && ApplyAt(disk, captionPath, outputPath, o)[captionPath] <= o.caption
    ensures (o.UserPromptUnreadable? || o.Fused?) ==>
      captionPath in ApplyAt(disk, captionPath, outputPath, o) && ApplyAt(disk, captionPath, outputPath, o)[captionPath] == o.caption
    ensures o.Fused? && o.attempt.Written? ==>
      outputPath in ApplyAt(disk, captionPath, outputPath, o) && ApplyAt(disk, captionPath, outputPath, o)[outputPath] == o.prompt
    ensures o.Fused? && o.attempt.WriteFailed? ==>
      outputPath in ApplyAt(disk, captionPath, outputPath, o) && ApplyAt(disk, captionPath, outputPath, o)[outputPath] <= o.prompt
    ensures !(o.Fused? && !o.attempt.OpenFailed?) ==> SameAt(ApplyAt(disk, captionPath, outputPath, o), disk, outputPath)
  {
    match o
    case CaptionNotSaved(caption, attempt) =>
      AfterWriteAtPath(disk, captionPath, caption, attempt);
      AfterWriteElsewhere(disk, captionPath, caption, attempt, outputPath);
    case Fused(caption, prompt, attempt) =>
      var d := disk[captionPath := caption];
      AfterWriteAtPath(d, outputPath, prompt, attempt);
      AfterWriteElsewhere(d, outputPath, prompt, attempt, captionPath);
    case _ =>
  }

  /** The fused prompt is the saved caption, ". " and the stripped user text
      (empty when the user file is missing), stripped again: it never has
      surrounding whitespace. */
  lemma FusedPrompt(file: string, env: Env)
    requires ProcessFile(file, env).Fused?
    ensures var o := ProcessFile(file, env);
      && !env.read(UserPromptPath(file)).ReadError?
      && o.prompt == Fuse(o.caption, UserText(env.read(UserPromptPath(file))))
      && o.attempt == env.write(file, OutputPath(file))
      && Trimmed(o.prompt)
  {
    var o := ProcessFile(file, env);
    FuseTrimmed(o.caption, UserText(env.read(UserPromptPath(file))));
  }

  /** A missing user prompt file fuses the caption alone; the caption is not
      stripped first, so a trailing blank stays in front of the period. */
  lemma FusedWithoutUserPrompt(file: string, env: Env)
    requires ProcessFile(file, env).Fused? && env.read(UserPromptPath(file)).Missing?
    ensures ProcessFile(file, env).prompt == Fuse(ProcessFile(file, env).caption, [])
    ensures Trimmed(ProcessFile(file, env).caption) ==>
      ProcessFile(file, env).prompt == ProcessFile(file, env).caption + "."
  {
    var c := ProcessFile(file, env).caption;
    if Trimmed(c) {
      FuseWithoutUserText(c);
    }
  }

  /** The caption a model returns verbatim, blank included, reaches the
      fused prompt: "a cat " without a user prompt becomes "a cat .". */
  lemma UntrimmedCaptionKeepsBlank()
    ensures Fuse("a cat ", []) == "a cat ."
  {
    var s := "a cat " + ". " + [];
    assert s == "a cat . ";
    var core := "a cat .";
    assert s[0..0 + |core|] == core && s[..0] == [] && s[0 + |core|..] == " ";
    StripOfCore(s, 0, core);
  }

  /** The image filter ignores case: it looks at the lower-cased name. */
  lemma ImageNameIgnoresCase(file: string)
    ensures IsImageName(file) == IsImageName(Lower(file))
  {
    LowerIdempotent(file);
  }

  lemma ImageNamesAccepted()
    ensures IsImageName("CAT.JPG") && IsImageName("dog.Jpeg") && IsImageName("x.png")
  {
    assert Lower("CAT.JPG") == "cat.jpg";
    assert Lower("dog.Jpeg") == "dog.jpeg";
    LowerOfLowercase("x.png");
  }

  lemma ImageNamesRejected()
    ensures !IsImageName("cat.gif") && !IsImageName("notes.txt") && !IsImageName("jpg")
  {
    LowerOfLowercase("cat.gif");
    LowerOfLowercase("notes.txt");
    LowerOfLowercase("jpg");
  }

  lemma LowerOfLowercase(s: string)
    requires forall k :: 0 <= k < |s| ==> !('A' <= s[k] <= 'Z')
    ensures Lower(s) == s
  {
  }

  /** Images without a slash in their name keep their key: the prompt file
      the pipeline writes is named so that the mesh script's key for it is
      the image's own key, and the caption, user prompt and output files of
      an image all carry that same name in their own folders. */
  lemma KeyFileKeepsKey(file: string)
    requires '/' !in file && !AllDots(Stem(file))
    ensures Stem(KeyFile(file)) == Stem(file)
  {
    StemHasNoSlash(file);
    StemOfTxtName(Stem(file));
  }

  lemma KeyFileInEveryFolder(file: string)
    requires '/' !in file
    ensures CaptionPath(file) == "captions/" + KeyFile(file)
    ensures UserPromptPath(file) == "user_prompts/" + KeyFile(file)
    ensures OutputPath(file) == "prompts/" + KeyFile(file)
  {
    var k := KeyFile(file);
    KeyFileHasNoSlash(file);
    JoinUnderDir("captions", k);
    JoinUnderDir("user_prompts", k);
    JoinUnderDir("prompts", k);
  }

  lemma StemHasNoSlash(file: string)
    requires '/' !in file
    ensures '/' !in Stem(file)
  {
    var r := SplitExt(file);
    assert Stem(file) == file[..|r.0|];
  }

  lemma KeyFileHasNoSlash(file: string)
    requires '/' !in file
    ensures '/' !in KeyFile(file)
  {
    StemHasNoSlash(file);
    var k := KeyFile(file);
    assert forall j :: 0 <= j < |k| ==> k[j] == if j < |Stem(file)| then Stem(file)[j] else ".txt"[j - |Stem(file)|];
  }

  /** No caption file is ever a prompt file: captions and prompts live in
      different folders. */
  lemma CaptionAndOutputDiffer(a: string, b: string)
    requires '/' !in a && '/' !in b
    ensures CaptionPath(a) != OutputPath(b)
  {
    KeyFileHasNoSlash(a);
    KeyFileHasNoSlash(b);
    JoinUnderDir("captions", KeyFile(a));
    JoinUnderDir("prompts", KeyFile(b));
    assert CaptionPath(a)[0] != OutputPath(b)[0];
  }

  /** Two images write the same prompt file exactly when they have the same
      key, whatever their extensions. */
  lemma OutputPathsCollide(a: string, b: string)
    requires '/' !in a && '/' !in b
    ensures OutputPath(a) == OutputPath(b) <==> Stem(a) == Stem(b)
  {
    KeyFileHasNoSlash(a);
    KeyFileHasNoSlash(b);
    JoinInjective("prompts", KeyFile(a), KeyFile(b));
    if KeyFile(a) == KeyFile(b) {
      assert Stem(a) == KeyFile(a)[..|KeyFile(a)| - 4];
      assert Stem(b) == KeyFile(b)[..|KeyFile(b)| - 4];
    }
  }

  /** "a.jpg" and "a.png" share a key, so the later one's prompt replaces the
      earlier one's. */
  lemma SameStemImagesCollide()
    ensures Stem("a.jpg") == Stem("a.png") == "a"
    ensures OutputPath("a.jpg") == OutputPath("a.png")
  {
    assert "a.jpg"[..1] == "a" == "a.png"[..1];
    assert "a"[0] != '.';
    StemAtLastDot("a.jpg", 1);
    StemAtLastDot("a.png", 1);
  }

  lemma ApplyLeavesOthers(disk: map<string, string>, file: string, o: ItemOutcome, p: string)
    requires p != CaptionPath(file) && p != OutputPath(file)
    ensures (p in Apply(disk, file, o) <==> p in disk)
    ensures p in disk ==> Apply(disk, file, o)[p] == disk[p]
  {
    ApplyAtLeavesOthers(disk, CaptionPath(file), OutputPath(file), o, p);
  }

  lemma ApplyAtLeavesOthers(disk: map<string, string>, captionPath: string, outputPath: string, o: ItemOutcome, p: string)
    requires p != captionPath && p != outputPath
    ensures (p in ApplyAt(disk, captionPath, outputPath, o) <==> p in disk)
    ensures p in disk ==> ApplyAt(disk, captionPath, outputPath, o)[p] == disk[p]
  {
  }

  /** Entries whose paths differ from `p` leave `p` alone. */
  lemma {:induction false} RunLeavesOthers(listing: seq<string>, env: Env, disk: map<string, string>, p: string)
    requires forall j :: 0 <= j < |listing| ==> p != CaptionPath(listing[j]) && p != OutputPath(listing[j])
    ensures (p in Run(listing, env, disk).disk <==> p in disk)
    ensures p in disk ==> Run(listing, env, disk).disk[p] == disk[p]
  {
    if listing != [] {
      var o := ProcessFile(listing[0], env);
      var d := Apply(disk, listing[0], o);
      ApplyLeavesOthers(disk, listing[0], o, p);
      if o.UserPromptUnreadable? {
        assert Run(listing, env, disk).disk == d;
      } else {
        assert Run(listing, env, disk).disk == Run(listing[1..], env, d).disk;
        forall j | 0 <= j < |listing[1..]|
          ensures p != CaptionPath(listing[1..][j]) && p != OutputPath(listing[1..][j])
        {
          assert listing[1..][j] == listing[j + 1];
        }
        RunLeavesOthers(listing[1..], env, d, p);
      }
    }
  }

  /** Whether an entry's prompt write got past open(), and so changed its
      prompt file. */
  predicate WritesPrompt(o: ItemOutcome) {
    o.Fused? && !o.attempt.OpenFailed?
  }

  /** One entry leaves a prompt file alone unless it is that file's own
      entry and its prompt write gets past open(). */
  lemma ApplyKeepsOutput(disk: map<string, string>, file: string, o: ItemOutcome, x: string)
    requires '/' !in file && '/' !in x
    requires OutputPath(file) == OutputPath(x) ==> !WritesPrompt(o)
    ensures SameAt(Apply(disk, file, o), disk, OutputPath(x))
  {
    if OutputPath(file) == OutputPath(x) {
      ApplyWrites(disk, file, o);
    } else {
      CaptionAndOutputDiffer(file, x);
      ApplyLeavesOthers(disk, file, o, OutputPath(x));
    }
  }

  /** A prompt file that no reached entry writes past open() keeps its
      contents through the run: skipped images, failed captions, failed
      caption writes and prompt writes whose open() raises leave it alone. */
  lemma {:induction false} RunKeepsOutput(listing: seq<string>, env: Env, disk: map<string, string>, x: string)
    requires '/' !in x
    requires forall j :: 0 <= j < |listing| ==> '/' !in listing[j]
    requires forall j :: 0 <= j < |Run(listing, env, disk).outcomes| && OutputPath(listing[j]) == OutputPath(x) ==>
      !WritesPrompt(ProcessFile(listing[j], env))
    ensures SameAt(Run(listing, env, disk).disk, disk, OutputPath(x))
  {
    if listing != [] {
      var o := ProcessFile(listing[0], env);
      var d := Apply(disk, listing[0], o);
      ApplyKeepsOutput(disk, listing[0], o, x);
      if !o.UserPromptUnreadable? {
        var rest := Run(listing[1..], env, d);
        assert Run(listing, env, disk) == Pipeline(rest.disk, [o] + rest.outcomes);
        forall j | 0 <= j < |listing[1..]| ensures '/' !in listing[1..][j] {
          assert listing[1..][j] == listing[j + 1];
        }
        forall j | 0 <= j < |rest.outcomes| && OutputPath(listing[1..][j]) == OutputPath(x)
          ensures !WritesPrompt(ProcessFile(listing[1..][j], env))
        {
          assert listing[1..][j] == listing[j + 1];
        }
        RunKeepsOutput(listing[1..], env, d, x);
      }
    }
  }

  /** SavedPromptOnDisk for the first entry of the listing. */
  lemma SavedFirstPrompt(listing: seq<string>, env: Env, disk: map<string, string>)
    requires forall j :: 0 <= j < |listing| ==> '/' !in listing[j]
    requires listing != [] && ProcessFile(listing[0], env).Fused? && ProcessFile(listing[0], env).attempt.Written?
    requires forall j :: 0 < j < |Run(listing, env, disk).outcomes| && Stem(listing[j]) == Stem(listing[0]) ==>
      !WritesPrompt(ProcessFile(listing[j], env))
    ensures OutputPath(listing[0]) in Run(listing, env, disk).disk
    ensures Run(listing, env, disk).disk[OutputPath(listing[0])] == ProcessFile(listing[0], env).prompt
  {
    var o := ProcessFile(listing[0], env);
    var d := Apply(disk, listing[0], o);
    var rest := Run(listing[1..], env, d);
    assert Run(listing, env, disk) == Pipeline(rest.disk, [o] + rest.outcomes);
    ApplyWrites(disk, listing[0], o);
    forall j | 0 <= j < |listing[1..]| ensures '/' !in listing[1..][j] {
      assert listing[1..][j] == listing[j + 1];
    }
    forall j | 0 <= j < |rest.outcomes| && OutputPath(listing[1..][j]) == OutputPath(listing[0])
      ensures !WritesPrompt(ProcessFile(listing[1..][j], env))
    {
      assert listing[1..][j] == listing[j + 1];
      OutputPathsCollide(listing[0], listing[j + 1]);
    }
    RunKeepsOutput(listing[1..], env, d, listing[0]);
  }

  /** A fused prompt that was saved is what the prompt file holds at the end
      of the run, unless a later image with the same key that the run
      reaches gets its own prompt write past open(). */
  lemma {:induction false} SavedPromptOnDisk(listing: seq<string>, env: Env, disk: map<string, string>, i: nat)
    requires forall j :: 0 <= j < |listing| ==> '/' !in listing[j]
    requires i < |Run(listing, env, disk).outcomes|
    requires Run(listing, env, disk).outcomes[i].Fused? && Run(listing, env, disk).outcomes[i].attempt.Written?
    requires forall j :: i < j < |Run(listing, env, disk).outcomes| && Stem(listing[j]) == Stem(listing[i]) ==>
      !WritesPrompt(ProcessFile(listing[j], env))
    ensures OutputPath(listing[i]) in Run(listing, env, disk).disk
    ensures Run(listing, env, disk).disk[OutputPath(listing[i])] == Run(listing, env, disk).outcomes[i].prompt
  {
    var o := ProcessFile(listing[0], env);
    var d := Apply(disk, listing[0], o);
    var os := Run(listing, env, disk).outcomes;
    if !o.UserPromptUnreadable? {
      var rest := Run(listing[1..], env, d);
      assert Run(listing, env, disk) == Pipeline(rest.disk, [o] + rest.outcomes);
      forall j | 0 <= j < |listing[1..]| ensures '/' !in listing[1..][j] {
        assert listing[1..][j] == listing[j + 1];
      }
      if i == 0 {
        SavedFirstPrompt(listing, env, disk);
      } else {
        assert os[i] == rest.outcomes[i - 1];
        forall j | i - 1 < j < |rest.outcomes| && Stem(listing[1..][j]) == Stem(listing[1..][i - 1])
          ensures !WritesPrompt(ProcessFile(listing[1..][j], env))
        {
          assert listing[1..][j] == listing[j + 1];
        }
        SavedPromptOnDisk(listing[1..], env, d, i - 1);
      }
    }
  }
}

=== FILE: fuse_text.dfy ===
/** The fusion-only script: for every caption file already in the caption
    folder, fuse the stripped caption with the stripped user prompt of the
    same name into the prompt folder. The file system is an oracle. */
module FuseText {
  import opened Text
  import opened Paths
  import opened Fusion

  /** The outside world of one run: what reading each path yields, and
      what writing each path does. */
  datatype Env = Env(read: string -> FileRead, write: string -> WriteOutcome)

  /** Where the exception that ended an entry's processing was raised; a
      failed prompt write carries the prompt and how far the write got. */
  datatype Failure = CaptionUnreadable | UserPromptUnreadable | PromptNotSaved(prompt: string, attempt: WriteOutcome)

  datatype Outcome = NotACaption | Failed(stage: Failure) | Combined(prompt: string)

  /** Case-sensitive caption_file.endswith(".txt"). */
  predicate IsCaptionFile(name: string) {
    EndsWith(name, ".txt")
  }

  /** The caption, the user prompt and the fused prompt all use the caption
      file's own name. */
  function CaptionPath(name: string): string { Join("captions", name) }
  function UserPromptPath(name: string): string { Join("user_prompts", name) }
  function FusedPath(name: string): string { Join("prompts", name) }

  /** One iteration of the loop; everything after the filter runs inside one
      try, so every exception becomes a failure of this entry. */
  function ProcessFile(name: string, env: Env): Outcome
  {
    if !IsCaptionFile(name) then NotACaption
    else
      match env.read(CaptionPath(name))
      case Readable(text) =>
        var caption := Strip(text);
        var user := env.read(UserPromptPath(name));
        if user.ReadError? then Failed(UserPromptUnreadable)
        else
          var combined := Fuse(caption, UserText(user));
          var w := env.write(FusedPath(name));
          if w.Written? then Combined(combined) else Failed(PromptNotSaved(combined, w))
      case _ => Failed(CaptionUnreadable)
  }

  /** Only ".txt" names are processed; a missing or unreadable caption
      fails the entry, and so does an unreadable user prompt; a prompt is
      combined exactly when the caption is readable, the user prompt is
      missing or readable and the write succeeds, and otherwise its write
      failed. */
  lemma ProcessFileStages(name: string, env: Env)
    ensures var o := ProcessFile(name, env);
      && (o.NotACaption? <==> !IsCaptionFile(name))
      && (o == Failed(CaptionUnreadable) <==> IsCaptionFile(name) && !env.read(CaptionPath(name)).Readable?)
      && (o == Failed(UserPromptUnreadable) <==>
            IsCaptionFile(name) && env.read(CaptionPath(name)).Readable? && env.read(UserPromptPath(name)).ReadError?)
      && (o.Combined? <==>
            IsCaptionFile(name) && env.read(CaptionPath(name)).Readable? && !env.read(UserPromptPath(name)).ReadError?
            && env.write(FusedPath(name)).Written?)
      && (o.Failed? && o.stage.PromptNotSaved? <==>
            IsCaptionFile(name) && env.read(CaptionPath(name)).Readable? && !env.read(UserPromptPath(name)).ReadError?
            && !env.write(FusedPath(name)).Written?)
      && (o.Failed? && o.stage.PromptNotSaved? ==> o.stage.attempt == env.write(FusedPath(name)))
  {
  }

  /** The prompt file of an entry is written when it was combined, and
      truncated or partly written when its write raised after open(). */
  function Apply(disk: map<string, string>, name: string, o: Outcome): map<string, string> {
    match o
    case Combined(prompt) => disk[FusedPath(name) := prompt]
    case Failed(PromptNotSaved(prompt, w)) => AfterWrite(disk, FusedPath(name), prompt, w)
    case _ => disk
  }

  /** Whether an outcome changes its entry's prompt file: a combined prompt,
      or a prompt write whose open() succeeded. */
  predicate ChangesPromptFile(o: Outcome) {
    o.Combined? || (o.Failed? && o.stage.PromptNotSaved? && !o.stage.attempt.OpenFailed?)
  }

  /** What an entry leaves in its own prompt file: the combined prompt; a
      prefix of the prompt when the write raised after open(); nothing
      changed otherwise. */
  lemma ApplyPromptFile(disk: map<string, string>, name: string, o: Outcome)
    ensures o.Combined? ==> FusedPath(name) in Apply(disk, name, o) && Apply(disk, name, o)[FusedPath(name)] == o.prompt
    ensures o.Failed? && ChangesPromptFile(o) ==>
      FusedPath(name) in Apply(disk, name, o) && Apply(disk, name, o)[FusedPath(name)] <= o.stage.prompt
    ensures !ChangesPromptFile(o) ==> Apply(disk, name, o) == disk
  {
    if o.Failed? && o.stage.PromptNotSaved? {
      AfterWriteAtPath(disk, FusedPath(name), o.stage.prompt, o.stage.attempt);
    }
  }

  /** An entry touches no path but its own prompt file. */
  lemma ApplyElsewhere(disk: map<string, string>, name: string, o: Outcome, q: string)
    requires q != FusedPath(name)
    ensures SameAt(Apply(disk, name, o), disk, q)
  {
    if o.Failed? && o.stage.PromptNotSaved? {
      AfterWriteElsewhere(disk, FusedPath(name), o.stage.prompt, o.stage.attempt, q);
    }
  }

  /** What an entry leaves in its own prompt file depends on nothing the
      file held before, except when it leaves the file alone. */
  lemma ApplyKeepsAgreement(d: map<string, string>, disk: map<string, string>, name: string, o: Outcome)
    requires SameAt(d, disk, FusedPath(name))
    ensures SameAt(Apply(d, name, o), Apply(disk, name, o), FusedPath(name))
  {
    if o.Failed? && o.stage.PromptNotSaved? {
      AfterWriteAtPath(d, FusedPath(name), o.stage.prompt, o.stage.attempt);
      AfterWriteAtPath(disk, FusedPath(name), o.stage.prompt, o.stage.attempt);
    }
  }

  /** The files after a run and the outcome of every entry. */
  datatype Pass = Pass(disk: map<string, string>, outcomes: seq<Outcome>)

  /** The loop over the caption folder's listing, in the order given. */
  function Run(listing: seq<string>, env: Env, disk: map<string, string>): (p: Pass)
    ensures |p.outcomes| == |listing|
  {
    if listing == [] then Pass(disk, [])
    else
      var o := ProcessFile(listing[0], env);
      var rest := Run(listing[1..], env, Apply(disk, listing[0], o));
      Pass(rest.disk, [o] + rest.outcomes)
  }

  /** Every entry is processed, and what happens to it depends on that entry
      alone: a failure of one entry skips only that entry. */
  lemma RunOutcomes(listing: seq<string>, env: Env, disk: map<string, string>)
    ensures forall i :: 0 <= i < |listing| ==> Run(listing, env, disk).outcomes[i] == ProcessFile(listing[i], env)
  {
    forall i | 0 <= i < |listing| ensures Run(listing, env, disk).outcomes[i] == ProcessFile(listing[i], env) {
      RunOutcomeAt(listing, env, disk, i);
    }
  }

  lemma {:induction false} RunOutcomeAt(listing: seq<string>, env: Env, disk: map<string, string>, i: nat)
    requires i < |listing|
    ensures Run(listing, env, disk).outcomes[i] == ProcessFile(listing[i], env)
  {
    var o := ProcessFile(listing[0], env);
    var d := Apply(disk, listing[0], o);
    assert Run(listing, env, disk).outcomes == [o] + Run(listing[1..], env, d).outcomes;
    if i > 0 {
      RunOutcomeAt(listing[1..], env, d, i - 1);
      assert listing[1..][i - 1] == listing[i];
    }
  }

  /** A combined prompt is the stripped caption fused with the user text:
      the stripped user prompt, or nothing when there is no user prompt
      file. It has no surrounding whitespace. */
  lemma CombinedPrompt(name: string, env: Env)
    requires ProcessFile(name, env).Combined?
    ensures ProcessFile(name, env).prompt ==
      Fuse(Strip(env.read(CaptionPath(name)).text), UserText(env.read(UserPromptPath(name))))
    ensures Trimmed(ProcessFile(name, env).prompt)
  {
    FuseTrimmed(Strip(env.read(CaptionPath(name)).text), UserText(env.read(UserPromptPath(name))));
  }

  /** A prompt whose write raised is the same fused text a successful write
      would have saved. */
  lemma UnsavedPromptText(name: string, env: Env)
    requires ProcessFile(name, env).Failed? && ProcessFile(name, env).stage.PromptNotSaved?
    ensures env.read(CaptionPath(name)).Readable? && !env.read(UserPromptPath(name)).ReadError?
    ensures ProcessFile(name, env).stage.prompt ==
      Fuse(Strip(env.read(CaptionPath(name)).text), UserText(env.read(UserPromptPath(name))))
  {
  }

  /** Because both parts are stripped, the combined prompt is the caption,
      ". " and the user text verbatim when there is user text, and the
      caption followed by a period when there is none. */
  lemma CombinedShape(name: string, env: Env)
    requires ProcessFile(name, env).Combined?
    ensures var caption := Strip(env.read(CaptionPath(name)).text);
      var user := UserText(env.read(UserPromptPath(name)));
      ProcessFile(name, env).prompt == if user == [] then caption + "." else caption + ". " + user
  {
    var caption := Strip(env.read(CaptionPath(name)).text);
    var r := env.read(UserPromptPath(name));
    var user := UserText(r);
    StripSpec(env.read(CaptionPath(name)).text);
    if r.Readable? {
      StripSpec(r.text);
    }
    if user == [] {
      FuseWithoutUserText(caption);
    } else {
      FuseWithUserText(caption, user);
    }
  }

  /** A caption of whitespace only is not skipped: without a user prompt it
      becomes the prompt ".". */
  lemma BlankCaptionBecomesPeriod(name: string, env: Env)
    requires IsCaptionFile(name) && env.read(CaptionPath(name)).Readable?
    requires AllSpace(env.read(CaptionPath(name)).text)
    requires env.read(UserPromptPath(name)).Missing? && env.write(FusedPath(name)).Written?
    ensures ProcessFile(name, env) == Combined(".")
  {
    var caption := Strip(env.read(CaptionPath(name)).text);
    StripOfSpaces(env.read(CaptionPath(name)).text);
    assert caption == [] && UserText(env.read(UserPromptPath(name))) == [];
    FuseEmpty();
    assert Fuse(caption, UserText(env.read(UserPromptPath(name)))) == ".";
  }

  /** A trailing blank of the caption does not reach the prompt here:
      "a cat " alone gives "a cat.". */
  lemma CaptionBlankDropped()
    ensures Fuse(Strip("a cat "), []) == "a cat."
  {
    var s := "a cat ";
    var core := "a cat";
    assert s[0..0 + |core|] == core && s[..0] == [] && s[0 + |core|..] == " ";
    assert core[0] == 'a' && core[|core| - 1] == 't';
    StripOfCore(s, 0, core);
    FuseWithoutUserText(core);
  }

  /** For a slash-free name the three paths are the name under each folder. */
  lemma SameNameInEveryFolder(name: string)
    requires '/' !in name
    ensures CaptionPath(name) == "captions/" + name
    ensures UserPromptPath(name) == "user_prompts/" + name
    ensures FusedPath(name) == "prompts/" + name
  {
    JoinUnderDir("captions", name);
    JoinUnderDir("user_prompts", name);
    JoinUnderDir("prompts", name);
  }

  /** Different names never share a prompt file. */
  lemma FusedPathInjective(name: string, other: string)
    requires '/' !in name && '/' !in other
    ensures FusedPath(name) == FusedPath(other) <==> name == other
  {
    JoinInjective("prompts", name, other);
  }

  /** Entries other than `name` never touch its prompt file. */
  lemma {:induction false} RunLeavesOthers(listing: seq<string>, env: Env, disk: map<string, string>, p: string)
    requires forall j :: 0 <= j < |listing| ==> p != FusedPath(listing[j])
    ensures (p in Run(listing, env, disk).disk <==> p in disk)
    ensures p in disk ==> Run(listing, env, disk).disk[p] == disk[p]
  {
    if listing != [] {
      var o := ProcessFile(listing[0], env);
      var d := Apply(disk, listing[0], o);
      ApplyElsewhere(disk, listing[0], o, p);
      assert Run(listing, env, disk).disk == Run(listing[1..], env, d).disk;
      forall j | 0 <= j < |listing[1..]| ensures p != FusedPath(listing[1..][j]) {
        assert listing[1..][j] == listing[j + 1];
      }
      RunLeavesOthers(listing[1..], env, d, p);
    }
  }

  /** Whether entry `name` changes path `p`. */
  predicate Writes(name: string, env: Env, p: string) {
    ChangesPromptFile(ProcessFile(name, env)) && FusedPath(name) == p
  }

  /** A path that no entry changes keeps its contents through the run. */
  lemma {:induction false} RunKeepsUnwritten(listing: seq<string>, env: Env, disk: map<string, string>, p: string)
    requires forall j :: 0 <= j < |listing| ==> !Writes(listing[j], env, p)
    ensures SameAt(Run(listing, env, disk).disk, disk, p)
  {
    if listing != [] {
      var o := ProcessFile(listing[0], env);
      var d := Apply(disk, listing[0], o);
      assert !Writes(listing[0], env, p);
      if FusedPath(listing[0]) == p {
        ApplyPromptFile(disk, listing[0], o);
      } else {
        ApplyElsewhere(disk, listing[0], o, p);
      }
      assert Run(listing, env, disk).disk == Run(listing[1..], env, d).disk;
      forall j | 0 <= j < |listing[1..]| ensures !Writes(listing[1..][j], env, p) {
        assert listing[1..][j] == listing[j + 1];
      }
      RunKeepsUnwritten(listing[1..], env, d, p);
    }
  }

  /** In a listing of distinct names, an entry's prompt file ends the run as
      that entry alone left it. */
  lemma {:induction false} FinalPromptFile(listing: seq<string>, env: Env, disk: map<string, string>, i: nat)
    requires forall j :: 0 <= j < |listing| ==> '/' !in listing[j]
    requires forall j, k :: 0 <= j < k < |listing| ==> listing[j] != listing[k]
    requires i < |listing|
    ensures SameAt(Run(listing, env, disk).disk, Apply(disk, listing[i], ProcessFile(listing[i], env)), FusedPath(listing[i]))
  {
    var o := ProcessFile(listing[0], env);
    var d := Apply(disk, listing[0], o);
    var p := FusedPath(listing[i]);
    assert Run(listing, env, disk).disk == Run(listing[1..], env, d).disk;
    if i == 0 {
      forall j | 0 <= j < |listing[1..]| ensures !Writes(listing[1..][j], env, p) {
        assert listing[1..][j] == listing[j + 1];
        FusedPathInjective(listing[0], listing[j + 1]);
      }
      RunKeepsUnwritten(listing[1..], env, d, p);
    } else {
      assert listing[1..][i - 1] == listing[i];
      DistinctNamesTail(listing);
      FinalPromptFile(listing[1..], env, d, i - 1);
      FusedPathInjective(listing[0], listing[i]);
      ApplyOtherEntry(disk, listing[0], o, listing[i], ProcessFile(listing[i], env));
    }
  }

  /** The tail of a listing of distinct slash-free names is one too. */
  lemma DistinctNamesTail(listing: seq<string>)
    requires listing != []
    requires forall j :: 0 <= j < |listing| ==> '/' !in listing[j]
    requires forall j, k :: 0 <= j < k < |listing| ==> listing[j] != listing[k]
    ensures forall j :: 0 <= j < |listing[1..]| ==> '/' !in listing[1..][j]
    ensures forall j, k :: 0 <= j < k < |listing[1..]| ==> listing[1..][j] != listing[1..][k]
  {
    forall j | 0 <= j < |listing[1..]| ensures '/' !in listing[1..][j] {
      assert listing[1..][j] == listing[j + 1];
    }
    forall j, k | 0 <= j < k < |listing[1..]| ensures listing[1..][j] != listing[1..][k] {
      assert listing[1..][j] == listing[j + 1] && listing[1..][k] == listing[k + 1];
    }
  }

  /** An earlier entry with another prompt file does not change what a later
      entry leaves in its own. */
  lemma ApplyOtherEntry(disk: map<string, string>, first: string, o1: Outcome, name: string, o: Outcome)
    requires FusedPath(first) != FusedPath(name)
    ensures SameAt(Apply(Apply(disk, first, o1), name, o), Apply(disk, name, o), FusedPath(name))
  {
    ApplyElsewhere(disk, first, o1, FusedPath(name));
    ApplyKeepsAgreement(Apply(disk, first, o1), disk, name, o);
  }

  /** In a listing of distinct names, an entry that is not combined leaves
      its prompt file as it was, unless its own prompt write raised after
      open(), which leaves a prefix of its prompt there. */
  lemma FailedEntryKeepsPrompt(listing: seq<string>, env: Env, disk: map<string, string>, i: nat)
    requires forall j :: 0 <= j < |listing| ==> '/' !in listing[j]
    requires forall j, k :: 0 <= j < k < |listing| ==> listing[j] != listing[k]
    requires i < |listing| && !ProcessFile(listing[i], env).Combined?
    ensures var o := ProcessFile(listing[i], env);
      !ChangesPromptFile(o) ==> SameAt(Run(listing, env, disk).disk, disk, FusedPath(listing[i]))
    ensures var o := ProcessFile(listing[i], env);
      ChangesPromptFile(o) ==>
        FusedPath(listing[i]) in Run(listing, env, disk).disk
        && Run(listing, env, disk).disk[FusedPath(listing[i])] <= o.stage.prompt
  {
    FinalPromptFile(listing, env, disk, i);
    ApplyPromptFile(disk, listing[i], ProcessFile(listing[i], env));
  }

  /** In a listing of distinct names, every combined prompt is in its prompt
      file at the end, whatever happened to the other entries. */
  lemma CombinedPromptOnDisk(listing: seq<string>, env: Env, disk: map<string, string>, i: nat)
    requires forall j :: 0 <= j < |listing| ==> '/' !in listing[j]
    requires forall j, k :: 0 <= j < k < |listing| ==> listing[j] != listing[k]
    requires i < |listing| && ProcessFile(listing[i], env).Combined?
    ensures FusedPath(listing[i]) in Run(listing, env, disk).disk
    ensures Run(listing, env, disk).disk[FusedPath(listing[i])] == ProcessFile(listing[i], env).prompt
  {
    FinalPromptFile(listing, env, disk, i);
    ApplyPromptFile(disk, listing[i], ProcessFile(listing[i], env));
  }
}

=== FILE: fusion.dfy ===
/** The prompt fusion formula shared by the captioning pipeline and the
    fusion-only script, f"{caption}. {user_text}".strip(), and what the
    text-file reads and writes around it do. */
module Fusion {
  import opened Text

  /** What opening and reading a text file yields: it does not exist, its
      contents, or an error raised by open() or read(). */
  datatype FileRead = Missing | Readable(text: string) | ReadError

  /** What `with open(path, "w") as f: f.write(text)` does: the write
      succeeds; or open() raises and the file is left alone; or open()
      creates or truncates the file and the write or the closing flush raises
      after `flushed` characters reached it. */
  datatype WriteOutcome = Written | OpenFailed | WriteFailed(flushed: nat)

  /** The files after writing `text` to `path` with outcome `w`. */
  function AfterWrite(disk: map<string, string>, path: string, text: string, w: WriteOutcome): map<string, string> {
    match w
    case Written => disk[path := text]
    case OpenFailed => disk
    case WriteFailed(n) => disk[path := text[..if n < |text| then n else |text|]]
  }

  /** An open() that raises changes nothing; once open() succeeds the file
      exists and holds a prefix of the text, all of it when the write
      succeeds. */
  lemma AfterWriteAtPath(disk: map<string, string>, path: string, text: string, w: WriteOutcome)
    ensures w.OpenFailed? ==> AfterWrite(disk, path, text, w) == disk
    ensures !w.OpenFailed? ==> path in AfterWrite(disk, path, text, w) && AfterWrite(disk, path, text, w)[path] <= text
    ensures w.Written? ==> AfterWrite(disk, path, text, w)[path] == text
  {
  }

  /** Two file states agree on path `p`: both lack it, or both hold the same
      contents there. */
  predicate SameAt(a: map<string, string>, b: map<string, string>, p: string) {
    (p in a <==> p in b) && (p in a ==> a[p] == b[p])
  }

  /** A write touches no other path. */
  lemma AfterWriteElsewhere(disk: map<string, string>, path: string, text: string, w: WriteOutcome, q: string)
    requires q != path
    ensures SameAt(AfterWrite(disk, path, text, w), disk, q)
  {
  }

  /** The user text both scripts fuse: empty when there is no user prompt
      file, otherwise the file's stripped contents. */
  function UserText(r: FileRead): string
    requires !r.ReadError?
  {
    if r.Missing? then [] else Strip(r.text)
  }

  /** No user prompt file means no user text; a present one never brings
      surrounding whitespace along. */
  lemma UserTextShape(r: FileRead)
    requires !r.ReadError?
    ensures r.Missing? ==> UserText(r) == []
    ensures Trimmed(UserText(r))
    ensures r.Readable? ==> Surrounds(r.text, UserText(r))
  {
    if r.Readable? {
      StripSpec(r.text);
    }
  }

  function Fuse(caption: string, userText: string): string {
    Strip(caption + ". " + userText)
  }

  /** The fused prompt never has surrounding whitespace. */
  lemma FuseTrimmed(caption: string, userText: string)
    ensures Trimmed(Fuse(caption, userText))
  {
    StripSpec(caption + ". " + userText);
  }

  /** With trimmed parts and some user text, strip() removes nothing: the
      result is the caption, ". " and the user text, verbatim. */
  lemma FuseWithUserText(caption: string, userText: string)
    requires Trimmed(caption) && Trimmed(userText) && userText != []
    ensures Fuse(caption, userText) == caption + ". " + userText
  {
    var s := caption + ". " + userText;
    assert s[0] == if caption == [] then '.' else caption[0];
    assert s[|s| - 1] == userText[|userText| - 1];
    StripTrimmed(s);
  }

  /** Without user text the trailing space goes and the period stays. */
  lemma FuseWithoutUserText(caption: string)
    requires Trimmed(caption)
    ensures Fuse(caption, []) == caption + "."
  {
    var s := caption + ". " + [];
    var core := caption + ".";
    assert s == core + " ";
    assert s[0..0 + |core|] == core && s[..0] == [] && s[0 + |core|..] == " ";
    assert core[0] == if caption == [] then '.' else caption[0];
    StripOfCore(s, 0, core);
  }

  /** An empty caption and no user text fuse to a lone period. */
  lemma FuseEmpty()
    ensures Fuse([], []) == "."
  {
    FuseWithoutUserText([]);
  }
}

=== FILE: mesh_batch.dfy ===
/** The mesh script: generate_mesh's output files and main's batch loop with
    its skip / success / failure accounting and final summary. The diffusion
    sampler, the mesh decoder and the wall clock are oracles. */
module MeshBatch {
  import opened Paths
  import opened PromptSource

  /** Wall-clock seconds, abstractly: never negative. */
  type Duration = r: real | 0.0 <= r

  /** The two files written for a key, in the output folder. */
  function PlyPath(outDir: string, key: string): string {
    Join(outDir, key + "_0.ply")
  }

  function ObjPath(outDir: string, key: string): string {
    Join(outDir, key + "_0.obj")
  }

  /** The two paths of one key are never the same file. */
  lemma OutputPathsDiffer(outDir: string, key: string)
    ensures PlyPath(outDir, key) != ObjPath(outDir, key)
  {
    var ply := PlyPath(outDir, key);
    var obj := ObjPath(outDir, key);
    assert ply[|ply| - 1] == (key + "_0.ply")[|key| + 5] == 'y';
    assert obj[|obj| - 1] == (key + "_0.obj")[|key| + 5] == 'j';
  }

  /** What happens to one sampled latent in generate_mesh's loop: it is
      decoded and written to both files, or one of the steps raises. Opening
      a file for writing creates it, so a write that raises leaves a
      (truncated) file behind while an open that raises leaves none. */
  datatype LatentStep = Saved | DecodeFailed | PlyOpenFailed | PlyWriteFailed | ObjOpenFailed | ObjWriteFailed

  /** The sampler raises, or returns some latents (one per batch slot). */
  datatype Sampling = SamplingFailed | Sampled(latents: seq<LatentStep>)

  /** The output files that exist after generate_mesh, and whether it raised. */
  datatype MeshWrite = MeshWrite(written: set<string>, raised: bool)

  /** The loop over latents: every latent rewrites the same two paths; the
      first failing step raises out of generate_mesh. */
  function WriteLatents(ply: string, obj: string, latents: seq<LatentStep>): (w: MeshWrite)
    ensures w.written <= {ply, obj}
    ensures !w.raised && latents != [] ==> w.written == {ply, obj}
  {
    if latents == [] then MeshWrite({}, false)
    else
      match latents[0]
      case Saved =>
        var rest := WriteLatents(ply, obj, latents[1..]);
        MeshWrite({ply, obj} + rest.written, rest.raised)
      case DecodeFailed => MeshWrite({}, true)
      case PlyOpenFailed => MeshWrite({}, true)
      case PlyWriteFailed => MeshWrite({ply}, true)
      case ObjOpenFailed => MeshWrite({ply}, true)
      case ObjWriteFailed => MeshWrite({ply, obj}, true)
  }

  /** The loop raises exactly when some latent fails to be decoded, opened or
      written. */
  lemma {:induction false} WriteLatentsRaises(ply: string, obj: string, latents: seq<LatentStep>)
    ensures WriteLatents(ply, obj, latents).raised <==> exists k :: 0 <= k < |latents| && latents[k] != Saved
  {
    if latents != [] {
      if latents[0] == Saved {
        WriteLatentsRaises(ply, obj, latents[1..]);
        if exists k :: 0 <= k < |latents| && latents[k] != Saved {
          var k :| 0 <= k < |latents| && latents[k] != Saved;
          assert latents[1..][k - 1] == latents[k];
        }
        if exists k :: 0 <= k < |latents[1..]| && latents[1..][k] != Saved {
          var k :| 0 <= k < |latents[1..]| && latents[1..][k] != Saved;
          assert latents[k + 1] == latents[1..][k];
        }
      }
    }
  }

  /** generate_mesh for one prompt and key. */
  function GenerateMesh(outDir: string, key: string, sampling: Sampling): MeshWrite {
    match sampling
    case SamplingFailed => MeshWrite({}, true)
    case Sampled(latents) => WriteLatents(PlyPath(outDir, key), ObjPath(outDir, key), latents)
  }

  /** generate_mesh creates at most the two paths main checks; it returns
      normally exactly when sampling succeeds and every latent is saved, and
      then, given at least one latent, both files exist. */
  lemma GenerateMeshContract(outDir: string, key: string, sampling: Sampling)
    ensures GenerateMesh(outDir, key, sampling).written <= {PlyPath(outDir, key), ObjPath(outDir, key)}
    ensures !GenerateMesh(outDir, key, sampling).raised <==>
      sampling.Sampled? && forall k :: 0 <= k < |sampling.latents| ==> sampling.latents[k] == Saved
    ensures !GenerateMesh(outDir, key, sampling).raised && sampling.Sampled? && sampling.latents != [] ==>
      GenerateMesh(outDir, key, sampling).written == {PlyPath(outDir, key), ObjPath(outDir, key)}
  {
    if sampling.Sampled? {
      WriteLatentsRaises(PlyPath(outDir, key), ObjPath(outDir, key), sampling.latents);
    }
  }

  /** One (prompt, key) pair of the zipped lists. */
  datatype Item = Item(prompt: string, key: string)

  /** What the collaborators do when item i is generated, and how long the
      call to generate_mesh took. */
  datatype Attempt = Attempt(sampling: Sampling, elapsed: Duration)

  datatype ItemResult = Skipped | Succeeded(elapsed: Duration) | Failed

  /** The loop state: the files that exist, the counters, total_time, and the
      result of every item visited so far. */
  datatype Batch = Batch(files: set<string>, success: nat, fail: nat, totalTime: real, results: seq<ItemResult>)

  /** Both output files of `key` exist: the item counts as already generated. */
  predicate Generated(outDir: string, files: set<string>, key: string) {
    PlyPath(outDir, key) in files && ObjPath(outDir, key) in files
  }

  /** One iteration of main's loop. */
  function Step(outDir: string, b: Batch, item: Item, attempt: Attempt): Batch {
    if Generated(outDir, b.files, item.key) then b.(results := b.results + [Skipped])
    else
      var w := GenerateMesh(outDir, item.key, attempt.sampling);
      var files := b.files + w.written;
      if w.raised then b.(files := files, fail := b.fail + 1, results := b.results + [Failed])
      else b.(files := files, success := b.success + 1, totalTime := b.totalTime + attempt.elapsed,
              results := b.results + [Succeeded(attempt.elapsed)])
  }

  /** main's loop over `items`, starting from the files in `files0`;
      `attempts(i)` is what generating item i does. */
  function Run(outDir: string, files0: set<string>, items: seq<Item>, attempts: nat -> Attempt): (b: Batch)
    ensures |b.results| == |items|
    decreases |items|
  {
    if items == [] then Batch(files0, 0, 0, 0.0, [])
    else Step(outDir, Run(outDir, files0, items[..|items| - 1], attempts), items[|items| - 1], attempts(|items| - 1))
  }

  function CountSkipped(rs: seq<ItemResult>): nat {
    if rs == [] then 0 else CountSkipped(rs[..|rs| - 1]) + if rs[|rs| - 1].Skipped? then 1 else 0
  }

  function CountSucceeded(rs: seq<ItemResult>): nat {
    if rs == [] then 0 else CountSucceeded(rs[..|rs| - 1]) + if rs[|rs| - 1].Succeeded? then 1 else 0
  }

  function CountFailed(rs: seq<ItemResult>): nat {
    if rs == [] then 0 else CountFailed(rs[..|rs| - 1]) + if rs[|rs| - 1].Failed? then 1 else 0
  }

  /** The elapsed times of the successful items, added up. */
  function SumElapsed(rs: seq<ItemResult>): real {
    if rs == [] then 0.0
    else SumElapsed(rs[..|rs| - 1]) + match rs[|rs| - 1] case Succeeded(e) => e as real case _ => 0.0
  }

  lemma CountsSnoc(rs: seq<ItemResult>, x: ItemResult)
    ensures CountSkipped(rs + [x]) == CountSkipped(rs) + (if x.Skipped? then 1 else 0)
    ensures CountSucceeded(rs + [x]) == CountSucceeded(rs) + (if x.Succeeded? then 1 else 0)
    ensures CountFailed(rs + [x]) == CountFailed(rs) + (if x.Failed? then 1 else 0)
    ensures SumElapsed(rs + [x]) == SumElapsed(rs) + (if x.Succeeded? then x.elapsed as real else 0.0)
  {
    assert (rs + [x])[..|rs|] == rs;
  }

  lemma {:induction false} CountsAddUp(rs: seq<ItemResult>)
    ensures CountSkipped(rs) + CountSucceeded(rs) + CountFailed(rs) == |rs|
  {
    if rs != [] {
      CountsAddUp(rs[..|rs| - 1]);
    }
  }

  /** One result per item; the counters count the successes and the
      failures; skipped, successful and failed items add up to the number of
      prompts; total_time is the sum of the successful items' times only. */
  lemma {:induction false} RunAccounting(outDir: string, files0: set<string>, items: seq<Item>, attempts: nat -> Attempt)
    ensures var b := Run(outDir, files0, items, attempts);
      && b.success == CountSucceeded(b.results)
      && b.fail == CountFailed(b.results)
      && b.success + b.fail + CountSkipped(b.results) == |items|
      && b.totalTime == SumElapsed(b.results)
    decreases |items|
  {
    var b := Run(outDir, files0, items, attempts);
    if items != [] {
      var init := items[..|items| - 1];
      var prev := Run(outDir, files0, init, attempts);
      RunAccounting(outDir, files0, init, attempts);
      assert b == Step(outDir, prev, items[|items| - 1], attempts(|init|));
      StepAccounting(outDir, prev, items[|items| - 1], attempts(|init|));
      CountsSnoc(prev.results, b.results[|b.results| - 1]);
    }
    CountsAddUp(b.results);
  }

  /** One step appends one result and moves the counters and the total by
      exactly what that result says. */
  lemma StepAccounting(outDir: string, b: Batch, item: Item, attempt: Attempt)
    ensures var after := Step(outDir, b, item, attempt);
      var x := after.results[|after.results| - 1];
      && |after.results| == |b.results| + 1
      && after.results == b.results + [x]
      && after.success == b.success + (if x.Succeeded? then 1 else 0)
      && after.fail == b.fail + (if x.Failed? then 1 else 0)
      && after.totalTime == b.totalTime + (if x.Succeeded? then x.elapsed as real else 0.0)
  {
  }

  /** Results already recorded are never revised by later items. */
  lemma {:induction false} RunExtends(outDir: string, files0: set<string>, items: seq<Item>, attempts: nat -> Attempt, j: nat)
    requires j <= |items|
    ensures Run(outDir, files0, items[..j], attempts).results <= Run(outDir, files0, items, attempts).results
    ensures Run(outDir, files0, items[..j], attempts).files <= Run(outDir, files0, items, attempts).files
    decreases |items|
  {
    if j < |items| {
      var init := items[..|items| - 1];
      RunExtends(outDir, files0, init, attempts, j);
      assert init[..j] == items[..j];
    } else {
      assert items[..j] == items;
    }
  }

  /** Item i is skipped exactly when both of its output files exist when the
      loop reaches it; otherwise generate_mesh runs, and the item counts as a
      success, with the call's time, exactly when that call does not raise. */
  lemma ItemDecision(outDir: string, files0: set<string>, items: seq<Item>, attempts: nat -> Attempt, i: nat)
    requires i < |items|
    ensures var before := Run(outDir, files0, items[..i], attempts).files;
      var r := Run(outDir, files0, items, attempts).results[i];
      var w := GenerateMesh(outDir, items[i].key, attempts(i).sampling);
      && (r.Skipped? <==> Generated(outDir, before, items[i].key))
      && (r.Succeeded? <==> !Generated(outDir, before, items[i].key) && !w.raised)
      && (r.Failed? <==> !Generated(outDir, before, items[i].key) && w.raised)
      && (r.Succeeded? ==> r.elapsed == attempts(i).elapsed)
  {
    RunAccounting(outDir, files0, items, attempts);
    RunAccounting(outDir, files0, items[..i], attempts);
    RunExtends(outDir, files0, items, attempts, i + 1);
    var upto := items[..i + 1];
    assert upto[..|upto| - 1] == items[..i];
    assert upto[|upto| - 1] == items[i];
  }

  /** A skipped item changes neither the counters, nor total_time, nor the
      files on disk. */
  lemma SkipChangesNothing(outDir: string, b: Batch, item: Item, attempt: Attempt)
    requires Generated(outDir, b.files, item.key)
    ensures var after := Step(outDir, b, item, attempt);
      after.files == b.files && after.success == b.success && after.fail == b.fail
      && after.totalTime == b.totalTime && after.results == b.results + [Skipped]
  {
  }

  /** Every output path of `items`. */
  function Outputs(outDir: string, items: seq<Item>): set<string>
    decreases |items|
  {
    if items == [] then {}
    else Outputs(outDir, items[..|items| - 1]) + {PlyPath(outDir, items[|items| - 1].key), ObjPath(outDir, items[|items| - 1].key)}
  }

  /** The loop only ever adds files, and only the output files of its items. */
  lemma {:induction false} FilesOnlyFromOutputs(outDir: string, files0: set<string>, items: seq<Item>, attempts: nat -> Attempt)
    ensures files0 <= Run(outDir, files0, items, attempts).files <= files0 + Outputs(outDir, items)
    decreases |items|
  {
    if items != [] {
      FilesOnlyFromOutputs(outDir, files0, items[..|items| - 1], attempts);
    }
  }

  /** Item i leaves both output files on disk: it was skipped, or the call
      to generate_mesh created both of them, whether or not it then raised. */
  predicate LeavesOutputs(outDir: string, key: string, r: ItemResult, a: Attempt) {
    r.Skipped? || GenerateMesh(outDir, key, a.sampling).written == {PlyPath(outDir, key), ObjPath(outDir, key)}
  }

  /** Both output files of every such item exist after the run. */
  lemma OutputsOnDisk(outDir: string, files0: set<string>, items: seq<Item>, attempts: nat -> Attempt, i: nat)
    requires i < |items|
    requires LeavesOutputs(outDir, items[i].key, Run(outDir, files0, items, attempts).results[i], attempts(i))
    ensures Generated(outDir, Run(outDir, files0, items, attempts).files, items[i].key)
  {
    ItemDecision(outDir, files0, items, attempts, i);
    RunExtends(outDir, files0, items, attempts, i + 1);
    var upto := items[..i + 1];
    assert upto[..|upto| - 1] == items[..i];
    assert upto[|upto| - 1] == items[i];
  }

  /** Running the batch again over the files a run left behind skips every
      item whose outputs that run left on disk, whatever the collaborators do. */
  lemma RerunSkips(outDir: string, files0: set<string>, items: seq<Item>, attempts: nat -> Attempt,
                   again: nat -> Attempt, i: nat)
    requires i < |items|
    requires LeavesOutputs(outDir, items[i].key, Run(outDir, files0, items, attempts).results[i], attempts(i))
    ensures var files := Run(outDir, files0, items, attempts).files;
      Run(outDir, files, items, again).results[i] == Skipped
  {
    var files := Run(outDir, files0, items, attempts).files;
    OutputsOnDisk(outDir, files0, items, attempts, i);
    FilesOnlyFromOutputs(outDir, files, items[..i], again);
    ItemDecision(outDir, files, items, again, i);
  }

  /** Every successful item that sampled at least one latent is skipped by
      the next run. */
  lemma RerunSkipsSucceeded(outDir: string, files0: set<string>, items: seq<Item>, attempts: nat -> Attempt,
                            again: nat -> Attempt, i: nat)
    requires i < |items| && Run(outDir, files0, items, attempts).results[i].Succeeded?
    requires attempts(i).sampling.Sampled? && attempts(i).sampling.latents != []
    ensures var files := Run(outDir, files0, items, attempts).files;
      Run(outDir, files, items, again).results[i] == Skipped
  {
    ItemDecision(outDir, files0, items, attempts, i);
    RerunSkips(outDir, files0, items, attempts, again, i);
  }

  /** An item whose .obj write raises is not counted as a success, yet it
      leaves both files behind, so no later run generates it again. */
  lemma TruncatedObjNeverRetried(outDir: string, files0: set<string>, items: seq<Item>, attempts: nat -> Attempt,
                                 again: nat -> Attempt, i: nat)
    requires i < |items| && attempts(i).sampling == Sampled([ObjWriteFailed])
    ensures !Run(outDir, files0, items, attempts).results[i].Succeeded?
    ensures var files := Run(outDir, files0, items, attempts).files;
      Run(outDir, files, items, again).results[i] == Skipped
  {
    var latents := [ObjWriteFailed];
    assert latents[0] != Saved;
    assert WriteLatents(PlyPath(outDir, items[i].key), ObjPath(outDir, items[i].key), latents).written
      == {PlyPath(outDir, items[i].key), ObjPath(outDir, items[i].key)};
    ItemDecision(outDir, files0, items, attempts, i);
    RerunSkips(outDir, files0, items, attempts, again, i);
  }

  /** Distinct keys give distinct output files. */
  lemma OutputPathsInjective(outDir: string, k1: string, k2: string)
    requires PlainDir(outDir) && '/' !in k1 && '/' !in k2 && k1 != k2
    ensures PlyPath(outDir, k1) != PlyPath(outDir, k2) && ObjPath(outDir, k1) != ObjPath(outDir, k2)
    ensures PlyPath(outDir, k1) != ObjPath(outDir, k2) && ObjPath(outDir, k1) != PlyPath(outDir, k2)
  {
    var p1, o1 := k1 + "_0.ply", k1 + "_0.obj";
    var p2, o2 := k2 + "_0.ply", k2 + "_0.obj";
    assert forall j :: 0 <= j < |p1| ==> p1[j] == if j < |k1| then k1[j] else "_0.ply"[j - |k1|];
    assert forall j :: 0 <= j < |p2| ==> p2[j] == if j < |k2| then k2[j] else "_0.ply"[j - |k2|];
    assert forall j :: 0 <= j < |o1| ==> o1[j] == if j < |k1| then k1[j] else "_0.obj"[j - |k1|];
    assert forall j :: 0 <= j < |o2| ==> o2[j] == if j < |k2| then k2[j] else "_0.obj"[j - |k2|];
    JoinInjective(outDir, p1, p2);
    JoinInjective(outDir, o1, o2);
    JoinInjective(outDir, p1, o2);
    JoinInjective(outDir, o1, p2);
    assert p1[|p1| - 1] != o2[|o2| - 1];
    assert o1[|o1| - 1] != p2[|p2| - 1];
  }

  /** An item that is not on disk and whose single latent is saved succeeds
      and adds its two files. */
  lemma StepSaves(outDir: string, b: Batch, item: Item, attempt: Attempt)
    requires !Generated(outDir, b.files, item.key) && attempt.sampling == Sampled([Saved])
    ensures Step(outDir, b, item, attempt) ==
      b.(files := b.files + {PlyPath(outDir, item.key), ObjPath(outDir, item.key)}, success := b.success + 1,
         totalTime := b.totalTime + attempt.elapsed, results := b.results + [Succeeded(attempt.elapsed)])
  {
    var ply, obj := PlyPath(outDir, item.key), ObjPath(outDir, item.key);
    assert [Saved][1..] == [];
    assert WriteLatents(ply, obj, [Saved]) == MeshWrite({ply, obj}, false);
  }

  /** An item that is not on disk and whose sampling raises fails and adds
      no file. */
  lemma StepSamplingFails(outDir: string, b: Batch, item: Item, attempt: Attempt)
    requires !Generated(outDir, b.files, item.key) && attempt.sampling == SamplingFailed
    ensures Step(outDir, b, item, attempt) == b.(fail := b.fail + 1, results := b.results + [Failed])
  {
  }

  /** A three-item batch whose middle item's sampling raises: two successes
      with both outputs on disk, one failure, and only the two successful
      times in the total. */
  lemma FailureIsolation(outDir: string, a: Item, b: Item, c: Item, attempts: nat -> Attempt)
    requires PlainDir(outDir) && '/' !in a.key && '/' !in b.key && '/' !in c.key
    requires a.key != b.key && a.key != c.key
    requires attempts(0).sampling == Sampled([Saved]) && attempts(2).sampling == Sampled([Saved])
    requires attempts(1).sampling == SamplingFailed
    ensures var r := Run(outDir, {}, [a, b, c], attempts);
      && r.success == 2 && r.fail == 1
      && r.totalTime == attempts(0).elapsed as real + attempts(2).elapsed as real
      && Generated(outDir, r.files, a.key) && Generated(outDir, r.files, c.key)
  {
    assert [] + [a] == [a] && [a] + [b] == [a, b] && [a, b] + [c] == [a, b, c];
    RunSnoc(outDir, {}, [], a, attempts);
    RunSnoc(outDir, {}, [a], b, attempts);
    RunSnoc(outDir, {}, [a, b], c, attempts);
    var r0 := Run(outDir, {}, [], attempts);
    var r1 := Run(outDir, {}, [a], attempts);
    var r2 := Run(outDir, {}, [a, b], attempts);
    var pa := {PlyPath(outDir, a.key), ObjPath(outDir, a.key)};
    StepSaves(outDir, r0, a, attempts(0));
    assert r1.files == pa && r1.success == 1 && r1.fail == 0 && r1.totalTime == attempts(0).elapsed as real;
    OutputPathsInjective(outDir, b.key, a.key);
    StepSamplingFails(outDir, r1, b, attempts(1));
    assert r2.files == pa && r2.success == 1 && r2.fail == 1 && r2.totalTime == r1.totalTime;
    OutputPathsInjective(outDir, c.key, a.key);
    StepSaves(outDir, r2, c, attempts(2));
  }

  /** The loop visits the items in order: one more item is one more step. */
  lemma RunSnoc(outDir: string, files0: set<string>, items: seq<Item>, x: Item, attempts: nat -> Attempt)
    ensures Run(outDir, files0, items + [x], attempts) == Step(outDir, Run(outDir, files0, items, attempts), x, attempts(|items|))
  {
    assert (items + [x])[..|items|] == items;
  }

  /** Whether main prints an average time per model, and which. */
  datatype Average = NotReported | Reported(seconds: real)

  /** The figures of the final summary. */
  datatype Summary = Summary(success: nat, fail: nat, totalTime: real, average: Average)

  function Summarise(b: Batch): (s: Summary)
    ensures s.success == b.success && s.fail == b.fail && s.totalTime == b.totalTime
    ensures s.average.Reported? <==> b.success > 0
    ensures s.average.Reported? ==> s.average.seconds * (b.success as real) == b.totalTime
  {
    Summary(b.success, b.fail, b.totalTime,
            if b.success > 0 then Reported(b.totalTime / b.success as real) else NotReported)
  }

  /** zip(prompts, filenames) */
  function Zip(prompts: seq<string>, keys: seq<string>): (items: seq<Item>)
    ensures |items| == if |prompts| <= |keys| then |prompts| else |keys|
    ensures forall i :: 0 <= i < |items| ==> items[i] == Item(prompts[i], keys[i])
  {
    if prompts == [] || keys == [] then []
    else [Item(prompts[0], keys[0])] + Zip(prompts[1..], keys[1..])
  }

  /** How one invocation of main ends: a prompt file could not be read and
      the exception escaped, there was nothing to do, or the loop ran and
      the summary was printed. */
  datatype MainOutcome = Crashed(file: string) | NothingToDo | Finished(batch: Batch, summary: Summary)

  /** main: discover the prompts, stop early when there are none, otherwise
      run the loop over the zipped prompts and keys and summarise. */
  function Main(listing: seq<string>, read: string -> ReadOutcome, outDir: string, files0: set<string>,
                attempts: nat -> Attempt): (o: MainOutcome)
    ensures o.Crashed? <==> ReadPromptsFromFolder(listing, read).ReadFailed?
    ensures o.NothingToDo? <==> ReadPromptsFromFolder(listing, read) == Discovered([], [])
    ensures o.Finished? ==>
      var d := ReadPromptsFromFolder(listing, read);
      && d.Discovered? && |d.prompts| > 0
      && |o.batch.results| == |d.prompts|
      && o.batch.success + o.batch.fail + CountSkipped(o.batch.results) == |d.prompts|
      && o.summary == Summarise(o.batch)
  {
    match ReadPromptsFromFolder(listing, read)
    case ReadFailed(f) => Crashed(f)
    case Discovered(prompts, keys) =>
      if |prompts| == 0 then NothingToDo
      else
        var items := Zip(prompts, keys);
        var b := Run(outDir, files0, items, attempts);
        RunAccounting(outDir, files0, items, attempts);
        Finished(b, Summarise(b))
  }
}

=== FILE: ordering.dfy ===
/** Python's ordering of str values and the sorted() call that fixes the order
    in which prompt files are discovered. */
module Ordering {

  /** a <= b for Python strings: lexicographic by code point, a proper prefix
      coming first. */
  predicate Le(a: string, b: string)
    decreases |a|
  {
    a == [] || (b != [] && (a[0] < b[0] || (a[0] == b[0] && Le(a[1..], b[1..]))))
  }

  lemma {:induction false} LeTotal(a: string, b: string)
    ensures Le(a, b) || Le(b, a)
    decreases |a|
  {
    if a != [] && b != [] && a[0] == b[0] {
      LeTotal(a[1..], b[1..]);
    }
  }

  lemma {:induction false} LeAntisymmetric(a: string, b: string)
    requires Le(a, b) && Le(b, a)
    ensures a == b
    decreases |a|
  {
    if a != [] {
      LeAntisymmetric(a[1..], b[1..]);
      assert a == [a[0]] + a[1..] && b == [b[0]] + b[1..];
    }
  }

  lemma {:induction false} LeTransitive(a: string, b: string, c: string)
    requires Le(a, b) && Le(b, c)
    ensures Le(a, c)
    decreases |a|
  {
    if a != [] && a[0] == b[0] && b[0] == c[0] {
      LeTransitive(a[1..], b[1..], c[1..]);
    }
  }

  predicate Sorted(s: seq<string>) {
    forall i, j :: 0 <= i < j < |s| ==> Le(s[i], s[j])
  }

  /** Every element of `s` is at least `x`. */
  predicate Below(x: string, s: seq<string>) {
    forall k :: 0 <= k < |s| ==> Le(x, s[k])
  }

  lemma BelowByMultiset(x: string, s: seq<string>, t: seq<string>)
    requires Below(x, s) && multiset(t) <= multiset(s)
    ensures Below(x, t)
  {
    forall k | 0 <= k < |t| ensures Le(x, t[k]) {
      assert t[k] in multiset(t);
      var m :| 0 <= m < |s| && s[m] == t[k];
    }
  }

  lemma SortedCons(x: string, s: seq<string>)
    requires Below(x, s) && Sorted(s)
    ensures Sorted([x] + s)
  {
    var r := [x] + s;
    forall i, j | 0 <= i < j < |r| ensures Le(r[i], r[j]) {
      if i > 0 {
        assert r[i] == s[i - 1] && r[j] == s[j - 1];
      } else {
        assert r[j] == s[j - 1];
      }
    }
  }

  /** Insertion of one name into a sorted list. */
  function Insert(x: string, s: seq<string>): (r: seq<string>)
    requires Sorted(s)
    ensures Sorted(r)
    ensures multiset(r) == multiset(s) + multiset{x}
    decreases |s|
  {
    if s == [] then [x]
    else if Le(x, s[0]) then
      InsertInFront(x, s);
      [x] + s
    else
      SortedTail(s);
      var rest := Insert(x, s[1..]);
      InsertBehind(x, s, rest);
      [s[0]] + rest
  }

  lemma InsertInFront(x: string, s: seq<string>)
    requires s != [] && Sorted(s) && Le(x, s[0])
    ensures Sorted([x] + s)
    ensures multiset([x] + s) == multiset(s) + multiset{x}
  {
    assert Below(x, s) by {
      forall k | 0 <= k < |s| ensures Le(x, s[k]) {
        if k > 0 { LeTransitive(x, s[0], s[k]); }
      }
    }
    SortedCons(x, s);
  }

  lemma InsertBehind(x: string, s: seq<string>, rest: seq<string>)
    requires s != [] && Sorted(s) && !Le(x, s[0])
    requires Sorted(rest) && multiset(rest) == multiset(s[1..]) + multiset{x}
    ensures Sorted([s[0]] + rest)
    ensures multiset([s[0]] + rest) == multiset(s) + multiset{x}
  {
    var tail := s[1..];
    LeTotal(x, s[0]);
    assert Below(s[0], tail + [x]) by {
      forall k | 0 <= k < |tail + [x]| ensures Le(s[0], (tail + [x])[k]) {
        if k < |tail| { assert (tail + [x])[k] == s[k + 1]; }
      }
    }
    assert multiset(tail + [x]) == multiset(tail) + multiset{x};
    BelowByMultiset(s[0], tail + [x], rest);
    SortedCons(s[0], rest);
    assert s == [s[0]] + tail;
  }

  /** Python's sorted() on a list of file names. */
  function Sort(s: seq<string>): (r: seq<string>)
    ensures Sorted(r)
    ensures multiset(r) == multiset(s)
  {
    if s == [] then []
    else
      assert s == [s[0]] + s[1..];
      Insert(s[0], Sort(s[1..]))
  }

  lemma SortedTail(a: seq<string>)
    requires a != [] && Sorted(a)
    ensures Sorted(a[1..])
  {
    forall i, j | 0 <= i < j < |a[1..]| ensures Le(a[1..][i], a[1..][j]) {
      assert a[1..][i] == a[i + 1] && a[1..][j] == a[j + 1];
    }
  }

  /** Two sorted lists with the same elements start with the same element. */
  lemma SortedSameHead(a: seq<string>, b: seq<string>)
    requires a != [] && Sorted(a) && Sorted(b) && multiset(a) == multiset(b)
    ensures b != [] && a[0] == b[0]
  {
    assert a[0] in multiset(b);
    assert b[0] in multiset(a);
    var i :| 0 <= i < |b| && b[i] == a[0];
    var j :| 0 <= j < |a| && a[j] == b[0];
    if i != 0 && j != 0 {
      LeAntisymmetric(a[0], b[0]);
    }
  }

  /** A sorted list is determined by its elements: whatever order the
      directory listing comes in, sorting yields the same list. */
  lemma {:induction false} SortedUnique(a: seq<string>, b: seq<string>)
    requires Sorted(a) && Sorted(b) && multiset(a) == multiset(b)
    ensures a == b
    decreases |a|
  {
    if a != [] {
      SortedSameHead(a, b);
      assert a == [a[0]] + a[1..] && b == [b[0]] + b[1..];
      assert multiset(a[1..]) == multiset(a) - multiset{a[0]};
      assert multiset(b[1..]) == multiset(b) - multiset{b[0]};
      SortedTail(a);
      SortedTail(b);
      SortedUnique(a[1..], b[1..]);
    } else {
      assert |b| == |multiset(b)|;
    }
  }

  lemma SortIgnoresOrder(s: seq<string>, t: seq<string>)
    requires multiset(s) == multiset(t)
    ensures Sort(s) == Sort(t)
  {
    SortedUnique(Sort(s), Sort(t));
  }
}

=== FILE: paths.dfy ===
/** POSIX path helpers from Python's os.path: splitext (the key of a file) and
    join (where each file lives). */
module Paths {
  import opened Text

  /** str.rfind for one character: the last index holding `c`, or -1. */
  function RFind(s: string, c: char): (i: int)
    ensures -1 <= i < |s|
    ensures i >= 0 ==> s[i] == c
    ensures forall k :: i < k < |s| ==> s[k] != c
  {
    if s == [] then -1
    else if s[|s| - 1] == c then |s| - 1
    else RFind(s[..|s| - 1], c)
  }

  predicate AllDots(s: string) {
    forall k :: 0 <= k < |s| ==> s[k] == '.'
  }

  /** os.path.splitext: the extension starts at the last dot after the last
      slash, unless every character of the base name before that dot is itself
      a dot (so ".txt" and "..txt" have no extension). */
  function SplitExt(p: string): (r: (string, string))
    ensures r.0 + r.1 == p
  {
    var sep := RFind(p, '/');
    var dot := RFind(p, '.');
    if dot > sep && !AllDots(p[sep + 1..dot]) then
      assert p[..dot] + p[dot..] == p;
      (p[..dot], p[dot..])
    else (p, [])
  }

  /** An extension is a dot followed by neither dots nor slashes. */
  lemma ExtensionShape(p: string)
    ensures SplitExt(p).1 != [] ==> SplitExt(p).1[0] == '.' && '.' !in SplitExt(p).1[1..]
    ensures '/' !in SplitExt(p).1
  {
    if SplitExt(p).1 != [] {
      var dot := RFind(p, '.');
      ExtensionAt(p);
      NotInSuffix(p, '.', dot + 1);
      NotInSuffix(p, '/', dot);
      assert p[dot..][1..] == p[dot + 1..];
    }
  }

  /** A non-empty extension starts at the last dot, after the last slash. */
  lemma ExtensionAt(p: string)
    requires SplitExt(p).1 != []
    ensures RFind(p, '.') > RFind(p, '/')
    ensures SplitExt(p).1 == p[RFind(p, '.')..]
  {
  }

  lemma NotInSuffix(p: string, c: char, i: nat)
    requires i <= |p| && forall k :: i <= k < |p| ==> p[k] != c
    ensures c !in p[i..]
  {
  }

  /** The key of a file: os.path.splitext(name)[0]. */
  function Stem(p: string): string {
    SplitExt(p).0
  }

  /** os.path.join with two arguments. */
  function Join(dir: string, name: string): (r: string)
    ensures EndsWith(r, name)
  {
    if name != [] && name[0] == '/' then name
    else if dir == [] || dir[|dir| - 1] == '/' then dir + name
    else dir + "/" + name
  }

  /** A directory name that join() extends with a separator. */
  predicate PlainDir(dir: string) {
    dir != [] && dir[|dir| - 1] != '/'
  }

  lemma JoinUnderDir(dir: string, name: string)
    requires PlainDir(dir) && '/' !in name
    ensures Join(dir, name) == dir + "/" + name
  {
    assert name != [] ==> name[0] in name;
  }

  /** Inside one directory, distinct file names give distinct paths. */
  lemma JoinInjective(dir: string, a: string, b: string)
    requires PlainDir(dir) && '/' !in a && '/' !in b
    ensures Join(dir, a) == Join(dir, b) <==> a == b
  {
    JoinUnderDir(dir, a);
    JoinUnderDir(dir, b);
    if Join(dir, a) == Join(dir, b) {
      assert a == Join(dir, a)[|dir| + 1..];
    }
  }

  lemma RFindAbsent(s: string, c: char)
    requires c !in s
    ensures RFind(s, c) == -1
  {
  }

  lemma RFindAt(s: string, c: char, i: nat)
    requires i < |s| && s[i] == c
    requires forall k :: i < k < |s| ==> s[k] != c
    ensures RFind(s, c) == i
  {
  }

  /** A slash-free name whose last dot is at `dot`, with something other
      than dots before it, is keyed by everything before that dot. */
  lemma StemAtLastDot(name: string, dot: nat)
    requires dot < |name| && name[dot] == '.' && '/' !in name
    requires forall k :: dot < k < |name| ==> name[k] != '.'
    requires !AllDots(name[..dot])
    ensures Stem(name) == name[..dot]
  {
    RFindAbsent(name, '/');
    RFindAt(name, '.', dot);
  }

  /** The key of a file named "<stem>.txt": the stem, unless the stem is made
      of dots only (".txt" keeps its whole name). */
  lemma TxtStem(name: string)
    requires EndsWith(name, ".txt") && '/' !in name
    ensures Stem(name) == if AllDots(name[..|name| - 4]) then name else name[..|name| - 4]
  {
    var n := |name|;
    assert name[n - 4..] == ".txt";
    assert name[n - 4] == '.' && name[n - 3] == 't' && name[n - 2] == 'x' && name[n - 1] == 't';
    RFindAbsent(name, '/');
    RFindAt(name, '.', n - 4);
  }

  /** Removing ".txt" and putting it back gives the same name: the key is the
      inverse of appending the extension. */
  lemma StemOfTxtName(stem: string)
    requires '/' !in stem && !AllDots(stem)
    ensures Stem(stem + ".txt") == stem
  {
    var name := stem + ".txt";
    assert name[..|name| - 4] == stem;
    assert '/' !in name by {
      assert forall k :: 0 <= k < |name| ==> name[k] == if k < |stem| then stem[k] else ".txt"[k - |stem|];
    }
    TxtStem(name);
  }

  /** Two ".txt" names whose stems are not all dots never share a key. */
  lemma TxtStemInjective(a: string, b: string)
    requires EndsWith(a, ".txt") && '/' !in a && !AllDots(a[..|a| - 4])
    requires EndsWith(b, ".txt") && '/' !in b && !AllDots(b[..|b| - 4])
    ensures Stem(a) == Stem(b) <==> a == b
  {
    TxtStem(a);
    TxtStem(b);
    if Stem(a) == Stem(b) {
      assert a == a[..|a| - 4] + ".txt" && b == b[..|b| - 4] + ".txt";
    }
  }

  /** The leading-dot rule makes two different prompt files share one key. */
  lemma DotOnlyStemsCollide()
    ensures Stem(".txt") == Stem(".txt.txt") == ".txt"
  {
    TxtStem(".txt");
    assert AllDots(".txt"[..0]);
    var n := ".txt.txt";
    TxtStem(n);
    assert n[..4][1] == 't';
  }

  /** Only the last extension is removed. */
  lemma StemKeepsInnerDots()
    ensures Stem("a.b.txt") == "a.b"
  {
    var n := "a.b.txt";
    TxtStem(n);
    assert n[..3][0] == 'a';
  }
}

=== FILE: prompt_source.dfy ===
/** Prompt discovery of the mesh script: every ".txt" file of the prompt
    folder, in sorted name order, read and stripped, with its key. */
module PromptSource {
  import opened Text
  import opened Ordering
  import opened Paths

  /** What reading one prompt file yields once the UTF-8 attempt and the
      Latin-1 fallback are done: the decoded text, or an error that escapes. */
  datatype ReadOutcome = Decoded(text: string) | Unreadable

  /** The two parallel lists the reader returns, or the file whose read error
      ended discovery. */
  datatype Discovery = Discovered(prompts: seq<string>, keys: seq<string>) | ReadFailed(file: string)

  /** Case-sensitive str.endswith(".txt"). */
  predicate IsPromptFile(name: string) {
    EndsWith(name, ".txt")
  }

  /** The prompt files among `names`, in the order of `names`. */
  function PromptFiles(names: seq<string>): (r: seq<string>)
    ensures forall x :: x in r <==> x in names && IsPromptFile(x)
  {
    if names == [] then []
    else (if IsPromptFile(names[0]) then [names[0]] else []) + PromptFiles(names[1..])
  }

  /** The files the reader visits: the prompt files of the listing, sorted. */
  function TxtFiles(listing: seq<string>): seq<string> {
    PromptFiles(Sort(listing))
  }

  /** Every file in `files` can be read. */
  predicate AllReadable(files: seq<string>, read: string -> ReadOutcome) {
    forall i :: 0 <= i < |files| ==> read(files[i]).Decoded?
  }

  lemma AllReadableCons(files: seq<string>, read: string -> ReadOutcome)
    requires files != []
    ensures AllReadable(files, read) <==> read(files[0]).Decoded? && AllReadable(files[1..], read)
  {
    if read(files[0]).Decoded? && AllReadable(files[1..], read) {
      forall i | 0 <= i < |files| ensures read(files[i]).Decoded? {
        if i > 0 { assert files[i] == files[1..][i - 1]; }
      }
    }
  }

  /** Reading and stripping the visited files one after the other; the first
      file whose read raises ends discovery. */
  function ReadAll(files: seq<string>, read: string -> ReadOutcome): (d: Discovery)
    ensures d.Discovered? <==> AllReadable(files, read)
    ensures d.Discovered? ==> |d.prompts| == |d.keys| == |files|
  {
    if files == [] then Discovered([], [])
    else
      AllReadableCons(files, read);
      match read(files[0])
      case Unreadable => ReadFailed(files[0])
      case Decoded(text) =>
        var rest := ReadAll(files[1..], read);
        if rest.ReadFailed? then rest
        else Discovered([Strip(text)] + rest.prompts, [Stem(files[0])] + rest.keys)
  }

  /** Entry i of both lists comes from the i-th visited file: its stripped
      text and its key. */
  lemma {:induction false} ReadAllEntries(files: seq<string>, read: string -> ReadOutcome, i: nat)
    requires ReadAll(files, read).Discovered? && i < |files|
    ensures read(files[i]).Decoded?
    ensures ReadAll(files, read).prompts[i] == Strip(read(files[i]).text)
    ensures ReadAll(files, read).keys[i] == Stem(files[i])
  {
    AllReadableCons(files, read);
    var rest := ReadAll(files[1..], read);
    assert ReadAll(files, read) == Discovered([Strip(read(files[0]).text)] + rest.prompts, [Stem(files[0])] + rest.keys);
    if i > 0 {
      ReadAllEntries(files[1..], read, i - 1);
      assert files[1..][i - 1] == files[i];
    }
  }

  /** The file reported on failure is the first unreadable one. */
  lemma {:induction false} ReadAllFailure(files: seq<string>, read: string -> ReadOutcome)
    requires ReadAll(files, read).ReadFailed?
    ensures exists i :: (0 <= i < |files| && files[i] == ReadAll(files, read).file && read(files[i]).Unreadable?
                         && AllReadable(files[..i], read))
  {
    if read(files[0]).Decoded? {
      ReadAllFailure(files[1..], read);
      var i :| 0 <= i < |files[1..]| && files[1..][i] == ReadAll(files[1..], read).file && read(files[1..][i]).Unreadable?
        && AllReadable(files[1..][..i], read);
      assert files[i + 1] == files[1..][i];
      assert files[..i + 1][1..] == files[1..][..i];
      AllReadableCons(files[..i + 1], read);
    }
  }

  /** read_prompts_from_folder: `listing` is what os.listdir returned and
      `read` what opening each file yields. Filtering before reading visits
      the same files in the same order as the loop that filters as it goes. */
  function ReadPromptsFromFolder(listing: seq<string>, read: string -> ReadOutcome): (d: Discovery)
    ensures d.Discovered? <==> forall x :: x in listing && IsPromptFile(x) ==> read(x).Decoded?
    ensures d.Discovered? ==> |d.prompts| == |d.keys| == |TxtFiles(listing)|
  {
    var files := TxtFiles(listing);
    TxtFilesMembers(listing);
    assert AllReadable(files, read) <==> forall x :: x in listing && IsPromptFile(x) ==> read(x).Decoded? by {
      if AllReadable(files, read) {
        forall x | x in listing && IsPromptFile(x) ensures read(x).Decoded? {
          var i :| 0 <= i < |files| && files[i] == x;
        }
      }
    }
    ReadAll(files, read)
  }

  /** The visited files are the ".txt" names of the listing. */
  lemma TxtFilesMembers(listing: seq<string>)
    ensures forall x :: x in TxtFiles(listing) <==> x in listing && IsPromptFile(x)
  {
    var sorted := Sort(listing);
    forall x ensures x in sorted <==> x in listing {
      assert x in sorted <==> x in multiset(sorted);
      assert x in listing <==> x in multiset(listing);
    }
  }

  /** Every discovered prompt is the stripped text of the visited file at the
      same position, so it has no surrounding whitespace, and every key is
      that file's name without its extension. */
  lemma DiscoveredEntries(listing: seq<string>, read: string -> ReadOutcome, i: nat)
    requires ReadPromptsFromFolder(listing, read).Discovered?
    requires i < |ReadPromptsFromFolder(listing, read).prompts|
    ensures IsPromptFile(TxtFiles(listing)[i]) && read(TxtFiles(listing)[i]).Decoded?
    ensures ReadPromptsFromFolder(listing, read).prompts[i] == Strip(read(TxtFiles(listing)[i]).text)
    ensures Trimmed(ReadPromptsFromFolder(listing, read).prompts[i])
    ensures ReadPromptsFromFolder(listing, read).keys[i] == Stem(TxtFiles(listing)[i])
  {
    assert TxtFiles(listing)[i] in TxtFiles(listing);
    ReadAllEntries(TxtFiles(listing), read, i);
    StripSpec(read(TxtFiles(listing)[i]).text);
  }

  /** A read error names a listed ".txt" file that could not be read, and
      every file visited before it was readable. */
  lemma DiscoveryFailure(listing: seq<string>, read: string -> ReadOutcome)
    requires ReadPromptsFromFolder(listing, read).ReadFailed?
    ensures var f := ReadPromptsFromFolder(listing, read).file;
      f in listing && IsPromptFile(f) && read(f).Unreadable?
    ensures exists i :: (0 <= i < |TxtFiles(listing)| && TxtFiles(listing)[i] == ReadPromptsFromFolder(listing, read).file
                         && AllReadable(TxtFiles(listing)[..i], read))
  {
    ReadAllFailure(TxtFiles(listing), read);
    TxtFilesMembers(listing);
  }

  /** The visited files are exactly the ".txt" names of the listing, each as
      often as listed, in ascending order. */
  lemma TxtFilesAreSortedPromptFiles(listing: seq<string>)
    ensures Sorted(TxtFiles(listing))
    ensures forall x :: multiset(TxtFiles(listing))[x] == if IsPromptFile(x) then multiset(listing)[x] else 0
  {
    SubsequenceSorted(Sort(listing));
    PromptFilesCount(Sort(listing));
  }

  lemma {:induction false} PromptFilesCount(names: seq<string>)
    ensures forall x :: multiset(PromptFiles(names))[x] == if IsPromptFile(x) then multiset(names)[x] else 0
  {
    if names != [] {
      PromptFilesCount(names[1..]);
      assert names == [names[0]] + names[1..];
    }
  }

  lemma {:induction false} SubsequenceSorted(names: seq<string>)
    requires Sorted(names)
    ensures Sorted(PromptFiles(names))
  {
    if names != [] {
      var tail := names[1..];
      SortedTail(names);
      SubsequenceSorted(tail);
      if IsPromptFile(names[0]) {
        assert Below(names[0], tail) by {
          forall k | 0 <= k < |tail| ensures Le(names[0], tail[k]) {
            assert tail[k] == names[k + 1];
          }
        }
        PromptFilesCount(tail);
        assert multiset(PromptFiles(tail)) <= multiset(tail);
        BelowByMultiset(names[0], tail, PromptFiles(tail));
        SortedCons(names[0], PromptFiles(tail));
      }
    }
  }

  /** Discovery does not depend on the order os.listdir happens to return. */
  lemma DiscoveryIgnoresListingOrder(a: seq<string>, b: seq<string>, read: string -> ReadOutcome)
    requires multiset(a) == multiset(b)
    ensures ReadPromptsFromFolder(a, read) == ReadPromptsFromFolder(b, read)
  {
    SortIgnoresOrder(a, b);
  }

  /** A folder without ".txt" files yields two empty lists. */
  lemma {:induction false} NoPromptFilesNoPrompts(listing: seq<string>, read: string -> ReadOutcome)
    requires forall x :: x in listing ==> !IsPromptFile(x)
    ensures ReadPromptsFromFolder(listing, read) == Discovered([], [])
  {
    TxtFilesMembers(listing);
  }

  /** A prompt file "<stem>.txt" is keyed by its stem, extensions inside the
      stem included, as long as the stem is not made of dots only. */
  lemma KeyOfPromptFile(listing: seq<string>, read: string -> ReadOutcome, i: nat)
    requires forall x :: x in listing ==> '/' !in x
    requires ReadPromptsFromFolder(listing, read).Discovered?
    requires i < |ReadPromptsFromFolder(listing, read).keys|
    ensures var name := TxtFiles(listing)[i];
      && IsPromptFile(name)
      && ReadPromptsFromFolder(listing, read).keys[i] ==
        if AllDots(name[..|name| - 4]) then name else name[..|name| - 4]
  {
    var files := TxtFiles(listing);
    ReadAllEntries(files, read, i);
    var name := files[i];
    assert name in files;
    TxtFilesMembers(listing);
    TxtStem(name);
  }
}

=== FILE: text.dfy ===
/** Python string primitives the pipeline relies on: str.isspace / str.strip,
    str.endswith and the ASCII part of str.lower. */
module Text {

  /** The characters for which Python's str.isspace() holds; str.strip() with
      no argument removes exactly these from both ends. */
  predicate IsSpace(c: char) {
    || c == ' '
    || ('\t' <= c <= '\r')            // tab, line feed, vertical tab, form feed, carriage return
    || ('\U{1C}' <= c <= '\U{1F}')     // file, group, record and unit separators
    || c == '\U{85}' || c == '\U{A0}' || c == '\U{1680}'
    || ('\U{2000}' <= c <= '\U{200A}')
    || c == '\U{2028}' || c == '\U{2029}' || c == '\U{202F}' || c == '\U{205F}' || c == '\U{3000}'
  }

  predicate AllSpace(s: string) {
    forall k :: 0 <= k < |s| ==> IsSpace(s[k])
  }

  /** No leading and no trailing whitespace. */
  predicate Trimmed(s: string) {
    s == [] || (!IsSpace(s[0]) && !IsSpace(s[|s| - 1]))
  }

  /** `r` occurs in `s` with only whitespace before and after it. */
  ghost predicate Surrounds(s: string, r: string) {
    exists i :: 0 <= i <= |s| - |r| && s[i..i + |r|] == r && AllSpace(s[..i]) && AllSpace(s[i + |r|..])
  }

  /** Python's `str.endswith` with one suffix. */
  predicate EndsWith(s: string, suffix: string) {
    |suffix| <= |s| && s[|s| - |suffix|..] == suffix
  }

  /** `s` ends with `suffix` exactly when some text followed by `suffix` is `s`. */
  lemma EndsWithConcat(s: string, suffix: string)
    ensures EndsWith(s, suffix) <==> exists p :: s == p + suffix
  {
    if EndsWith(s, suffix) {
      assert s == s[..|s| - |suffix|] + suffix;
    }
    if p :| s == p + suffix {
      assert s[|s| - |suffix|..] == suffix;
    }
  }

  /** Length of the whitespace run at the start of `s`. */
  function LeadingSpaces(s: string): (n: nat)
    ensures n <= |s| && AllSpace(s[..n])
    ensures n < |s| ==> !IsSpace(s[n])
  {
    if s == [] || !IsSpace(s[0]) then 0 else 1 + LeadingSpaces(s[1..])
  }

  /** Length of the whitespace run at the end of `s`. */
  function TrailingSpaces(s: string): (n: nat)
    ensures n <= |s| && AllSpace(s[|s| - n..])
    ensures n < |s| ==> !IsSpace(s[|s| - n - 1])
  {
    if s == [] || !IsSpace(s[|s| - 1]) then 0
    else
      var n := TrailingSpaces(s[..|s| - 1]);
      TrailingRunGrows(s, n);
      n + 1
  }

  /** A whitespace run at the end of all but the last character, followed by
      a whitespace last character, is one longer whitespace run. */
  lemma TrailingRunGrows(s: string, n: nat)
    requires s != [] && n <= |s| - 1 && IsSpace(s[|s| - 1])
    requires AllSpace(s[..|s| - 1][|s| - 1 - n..])
    ensures AllSpace(s[|s| - (n + 1)..])
  {
    var run, shorter := s[|s| - (n + 1)..], s[..|s| - 1][|s| - 1 - n..];
    forall k | 0 <= k < |run| ensures IsSpace(run[k]) {
      if k < n {
        assert run[k] == shorter[k];
      }
    }
  }

  /** Python's str.strip() without arguments. */
  function Strip(s: string): string {
    var i := LeadingSpaces(s);
    s[i..|s| - TrailingSpaces(s[i..])]
  }

  /** What strip() keeps: it is trimmed and sits in `s` between two runs of
      whitespace. */
  lemma StripSpec(s: string)
    ensures |Strip(s)| <= |s|
    ensures Trimmed(Strip(s)) && Surrounds(s, Strip(s))
  {
    StripResultTrimmed(s);
    StripResultSurrounded(s);
  }

  lemma StripResultTrimmed(s: string)
    ensures Trimmed(Strip(s))
  {
    var i := LeadingSpaces(s);
    var t := s[i..];
    var n := TrailingSpaces(t);
    var r := s[i..|s| - n];
    assert Strip(s) == r;
    if r != [] {
      assert r[0] == s[i];
      assert r[|r| - 1] == t[|t| - n - 1];
    }
  }

  lemma StripResultSurrounded(s: string)
    ensures |Strip(s)| <= |s| && Surrounds(s, Strip(s))
  {
    var i := LeadingSpaces(s);
    var t := s[i..];
    var n := TrailingSpaces(t);
    var r := s[i..|s| - n];
    assert Strip(s) == r;
    assert s[i..i + |r|] == r;
    assert s[i + |r|..] == t[|t| - n..];
    assert AllSpace(s[..i]) && AllSpace(s[i + |r|..]);
  }

  lemma LeadingSpacesExact(s: string, i: nat)
    requires i < |s| && AllSpace(s[..i]) && !IsSpace(s[i])
    ensures LeadingSpaces(s) == i
  {
  }

  lemma TrailingSpacesExact(s: string, m: nat)
    requires m < |s| && AllSpace(s[|s| - m..]) && !IsSpace(s[|s| - m - 1])
    ensures TrailingSpaces(s) == m
  {
  }

  lemma {:induction false} LeadingSpacesOfSpaces(s: string)
    requires AllSpace(s)
    ensures LeadingSpaces(s) == |s|
  {
    if s != [] {
      LeadingSpacesOfSpaces(s[1..]);
    }
  }

  lemma StripOfSpaces(s: string)
    requires AllSpace(s)
    ensures Strip(s) == []
  {
    LeadingSpacesOfSpaces(s);
    assert s[|s|..] == [];
  }

  /** A non-empty trimmed core between whitespace runs is what strip() returns. */
  lemma StripOfCore(s: string, i: nat, r: string)
    requires r != [] && Trimmed(r) && i + |r| <= |s| && s[i..i + |r|] == r
    requires AllSpace(s[..i]) && AllSpace(s[i + |r|..])
    ensures Strip(s) == r
  {
    assert s[i] == r[0];
    LeadingSpacesExact(s, i);
    var t := s[i..];
    var m := |s| - i - |r|;
    assert t[|t| - m..] == s[i + |r|..];
    assert t[|t| - m - 1] == r[|r| - 1];
    TrailingSpacesExact(t, m);
  }

  /** Strip(s) is THE trimmed string that sits in `s` between two runs of
      whitespace. */
  lemma StripCharacterization(s: string, r: string)
    ensures Strip(s) == r <==> Trimmed(r) && Surrounds(s, r)
  {
    StripSpec(s);
    if Trimmed(r) && Surrounds(s, r) {
      var i :| 0 <= i <= |s| - |r| && s[i..i + |r|] == r && AllSpace(s[..i]) && AllSpace(s[i + |r|..]);
      if r == [] {
        assert AllSpace(s) by {
          forall k | 0 <= k < |s| ensures IsSpace(s[k]) {
            if k < i { assert s[..i][k] == s[k]; } else { assert s[i..][k - i] == s[k]; }
          }
        }
        StripOfSpaces(s);
      } else {
        StripOfCore(s, i, r);
      }
    }
  }

  lemma StripTrimmed(s: string)
    requires Trimmed(s)
    ensures Strip(s) == s
  {
    assert s[0..0 + |s|] == s && s[..0] == [] && s[0 + |s|..] == [];
    StripCharacterization(s, s);
  }

  /** str.strip() is idempotent. */
  lemma StripIdempotent(s: string)
    ensures Strip(Strip(s)) == Strip(s)
  {
    StripSpec(s);
    StripTrimmed(Strip(s));
  }

  /** The ASCII part of Python's str.lower(). */
  function LowerChar(c: char): char {
    if 'A' <= c <= 'Z' then (c as int - 'A' as int + 'a' as int) as char else c
  }

  function Lower(s: string): string {
    seq(|s|, k requires 0 <= k < |s| => LowerChar(s[k]))
  }

  lemma LowerIdempotent(s: string)
    ensures Lower(Lower(s)) == Lower(s)
  {
  }
}
